=== FILE: README.md ===
# Waste detection: the result pipeline behind the UI

The system is a desktop application for sorting plastic waste. It runs a YOLO
object detector on image files or webcam frames and shows the detections as
labelled boxes. It counts them per plastic class (PET, HDPE, PVC, LDPE, PP, PS),
keeps a history of processed images, and offers an analytics page and a
paginated history gallery. There are two variants:

- `rec.py` keeps its history in memory. On the webcam it tracks objects with
  StrongSORT and remembers the label each track identity was first seen with.
- `Scripts/t-testing-4.1.py` keeps its history in an SQLite table. Its
  thresholds are set with sliders.

This project models the deterministic logic between the detector and the
screen as pure functions over one explicit state. The detector, the tracker,
the camera, the file system, the clock and cv2's text measurement are
parameters:

| file | module | models |
|---|---|---|
| `wrappers.dfy` | `Wrappers` | `Option` |
| `text.dfy` | `Text` | ASCII lower-casing, Python's `in` on strings, `strip` |
| `detections.dfy` | `Detections` | detections, class-name lookup, confidence filter |
| `normalizer.dfy` | `Normalizer` | first-match label normalization and box colours |
| `statclasses.dfy` | `StatClasses` | the list of stat-card classes in both variants |
| `statistics.dfy` | `Statistics` | per-class counts, progress values, clearing |
| `annotator.dfy` | `Annotator` | label placement arithmetic and export rows |
| `identity.dfy` | `IdentityMemory` | the webcam identity memory |
| `history.dfy` | `HistoryStore` | the in-memory history store and history page |
| `analytics.dfy` | `Analytics` | the in-memory analytics cards |
| `controls.dfy` | `Controls` | image navigation, typed thresholds, sliders |
| `session.dfy` | `Session` | `rec.py`'s detection view as a state machine |
| `dbarchive.dfy` | `Archive` | the database variant's analytics counting and gallery |

Notes on behaviour the model keeps as the code has it:

- In `rec.py`, `setup_stat_cards` always ends with the six default classes
  once a model is loaded. Its final `else` overwrites whatever list was
  derived. `StatClasses.LiveStatClasses` says so.
- In `rec.py`, the black-or-white font colour of a label is chosen from the
  raw model label, before normalization (`Annotator.FontColor`).
- A model whose class names are missing gets the placeholder table
  `Class_0` … `Class_79`. A lookup miss also yields `Class_<id>`, so
  `Detections.ClassName` covers both.
- The stored confidence is taken as the detector delivers it. The source
  rounds it to four decimals when storing it (see Left out).
- The progress value is `count * 100 / total` in integer arithmetic. The
  source computes `int(count / total * 100)` in floating point, which can come
  out one lower. The bound [0, 100] holds for both.

## Model

| member | source | states |
|---|---|---|
| Detections.ClassName | rec.py:1860 | the model's name for a known class id, otherwise a `Class_`-prefixed placeholder |
| Detections.FromRaw | rec.py:1854-1865 | one detection per raw box, in order, with the looked-up class name, the confidence and the box |
| Detections.FilterByConfidence | rec.py:1882-1884 | the displayed detections are exactly the stored ones with confidence at or above the threshold, never more |
| Detections.FilterIsSubsequence | rec.py:1882-1884 | the displayed list keeps the stored order (it is a subsequence) |
| Detections.FilterTwice | rec.py:1882-1884 | filtering at a lower and then a higher threshold is filtering at the higher one |
| Detections.FilterMonotone | rec.py:1882-1884 | for t1 <= t2 the list shown at t2 is a subsequence of the list shown at t1 |
| Detections.ToCenterForm | rec.py:2274-2280 | the centre/width/height form handed to the tracker spans exactly the corner box, with positive size for a non-degenerate box |
| Detections.TrackerInputs | rec.py:2269-2283 | the tracker receives every detection of the frame, in order, with its box in center form, its confidence and its class id |
| Normalizer.FirstMatch | rec.py:1943-1947 | the first target class whose lower-case form occurs in the lower-cased raw label, and that no earlier class matches; None when no class matches |
| Normalizer.Normalize | rec.py:1935-1947 | the first matching target class with that class's colour, or the raw label with the default colour when none matches |
| Normalizer.NormalizeIdempotent | Scripts/t-testing-4.1.py:1264-1270 | normalizing a normalized label changes nothing |
| StatClasses.ArchiveStatClasses | Scripts/t-testing-4.1.py:596-620 | 1 to 6 entries: first the defined plastics the model names, in defined order and without repetition, then model names containing no defined plastic; the six defaults when nothing is derived or no names exist |
| StatClasses.MatchedPlastics | Scripts/t-testing-4.1.py:603-606 | the matched defined plastics are distinct, in defined order, and are exactly the ones some model name contains |
| StatClasses.Remaining | Scripts/t-testing-4.1.py:608 | exactly the model names containing no defined plastic |
| StatClasses.SortNames | Scripts/t-testing-4.1.py:601 | a sorted permutation of the model names |
| StatClasses.SortedKeepsMatches | Scripts/t-testing-4.1.py:601-606 | sorting the names does not change which plastics are matched |
| StatClasses.DeriveEmptyIffNoNames | Scripts/t-testing-4.1.py:608-615 | the derived list is empty exactly when the model has no names, the case that falls back to the defaults |
| StatClasses.LiveStatClasses | rec.py:1000-1037 | with a model loaded, the list is the six defaults whatever the model names; without one it is empty |
| Statistics.BucketCountsPerClass | rec.py:2072-2081 | each class count is the number of detections whose first matching class is that class |
| Statistics.BucketCountsSum | rec.py:2072-2081 | the counts add up to the number of detections that match some class, so at most the total |
| Statistics.CountDetections | rec.py:2072-2081 | the counting loop computes the first-match bucket counts |
| Statistics.Percent | rec.py:2091 | the progress value is within [0, 100] and is the share in percent rounded down |
| Statistics.Cleared | rec.py:2005-2026 | every class count and progress value, the total and the time are zero (the corrected clearing; see Findings) |
| Statistics.Project | rec.py:2058-2099 | with no model the cards are cleared; an empty list clears the counts and shows the time; otherwise per-class first-match counts, total, time, and progress in [0, 100] bounded by each share |
| Statistics.ProjectAsWritten | rec.py:2005-2026 | as written, clearing zeroes the class cards but leaves the total and time cards showing the previous values |
| Statistics.StaleTotalAsWritten | rec.py:2064-2070 | after a one-detection frame, an empty frame leaves total 1 and the old time as written, where the corrected projection shows 0 and the new time |
| Annotator.PlaceLabel | Scripts/t-testing-4.1.py:1286-1301 | the label sits above the box unless its background would start above the image top, then below it; the background is clamped into [0, image width]; it is drawn only when non-empty |
| Annotator.TopEdgeBoxLabelBelow | rec.py:1976-1980 | a box touching the top edge gets its label below |
| Annotator.FontColor | rec.py:1938-1941 | black text exactly for raw labels PET, HDPE and LDPE in the in-memory variant; white always in the database variant |
| Annotator.Annotate | rec.py:1929-2002 | one export row per detection in input order, with object id i+1, the normalized class name, the confidence, the box and the track id (in-memory variant); each drawn label is in its class colour, placed by PlaceLabel, and flagged low confidence below 0.5 |
| Annotator.ExportRowsStable | Scripts/t-testing-4.1.py:1258-1276 | exported class names are fixed points of normalization and object ids increase strictly |
| IdentityMemory.TickBindings | rec.py:2287-2306 | after a tick the identity map's keys are exactly the frame's track ids, and an identity bound before and still tracked keeps its label |
| IdentityMemory.Prune | rec.py:2288-2291 | the pruned map keeps exactly the bindings whose identity some track of this frame carries, each with its label unchanged |
| IdentityMemory.TickDisplay | rec.py:2293-2320 | one displayed detection per track, carrying its track id and the identity's bound label; a first sighting shows the reported class |
| IdentityMemory.TickRecord | rec.py:2302-2310 | something is newly bound exactly when some track id was unknown, one detection per newly bound identity |
| IdentityMemory.BindNewlyBoundCount | rec.py:2302-2310 | the number of newly bound detections is the number of new track ids |
| IdentityMemory.LabelStableWhileTracked | rec.py:2302-2303 | an identity reported in every frame of a run keeps its first label throughout |
| IdentityMemory.AbsentIdentityForgotten | rec.py:2288-2291 | a frame without an identity ends its binding |
| IdentityMemory.DriftingClassKeepsFirstLabel | rec.py:2302-2310 | an identity first seen as PET and then reported as HDPE still shows PET and stores nothing new |
| HistoryStore.FindPath | rec.py:1841 | the first record with the path, or None exactly when none has it |
| HistoryStore.StoreFile | rec.py:1841-1878 | a stored path leaves history unchanged and reuses its detections and processing time; otherwise exactly one record is appended with id = old length + 1, source file, and the detections inferred at confidence 0.01; ids and unique paths are preserved |
| HistoryStore.StoreFileTwice | rec.py:1841-1846 | processing the same file again changes nothing and serves what the first run stored |
| HistoryStore.StoredIndependentOfThreshold | rec.py:1847-1878 | the stored detections of a new file are the same whatever confidence threshold is in force, because inference runs at the 0.01 floor |
| HistoryStore.StoreTracked | rec.py:2322-2333 | a webcam tick appends one webcam record with id = old length + 1 exactly when something was newly bound |
| HistoryStore.Select | rec.py:2680-2698 | a record is selected exactly when it passes the type and search filters, and each at most as often as stored |
| HistoryStore.SortNewestFirst | rec.py:2701 | a permutation of the selection, ordered by timestamp descending |
| HistoryStore.SortIsStable | rec.py:2701 | records with equal timestamps keep their stored order |
| HistoryStore.PageCount | rec.py:2704-2708 | ceil(n / 16), at least 1 |
| HistoryStore.ClampPage | rec.py:2709 | the requested page clamped into [1, pages], unchanged when already in range |
| HistoryStore.PageSlice | rec.py:2710-2712 | at most 16 records, positions (p-1)*16 onward, non-empty when the page starts inside the list |
| HistoryStore.Query | rec.py:2677-2731 | at most 16 records, each stored and passing both filters, newest first; prev enabled iff page > 1, next iff page < pages; the empty-page note tells no history from no match |
| HistoryStore.QueryShowsEveryMatch | rec.py:2700-2712 | every record passing the filters is shown on some page within range |
| HistoryStore.QueryShownInOrder | rec.py:2701 | shown records are newest first, ties in recording order |
| HistoryStore.ClearHistory | rec.py:2039-2047 | a confirmed clear empties the history; declining keeps it |
| Analytics.CountKeys | rec.py:2577-2597 | the counter has one entry per distinct key with a positive count, and the counts add up to the number of keys |
| Analytics.CountKeysCounts | rec.py:2577-2597 | each key's count is the number of its occurrences |
| Analytics.MostCommon | rec.py:2604-2605 | the first entry with the largest count; None exactly for an empty counter |
| Analytics.AnalyticsKey | rec.py:2581-2597 | a detection is counted under the first model class name equal to its class ignoring case; failing that under the first defined plastic its class contains; else under its own class |
| Analytics.Aggregate | rec.py:2523-2605 | no model leaves the cards alone; empty history shows 0, 0ms, 0%, 0 records and N/A; total items is the number of stored detections passing the threshold; most frequent is N/A exactly when that total is 0 |
| Analytics.AggregateCards | rec.py:2600-2605 | average time is the summed processing time over the record count; average confidence is the mean passing confidence times 100, or 0 when nothing passes; the most frequent card is the counter's first entry with the largest count, N/A exactly when the counter is empty |
| Analytics.AggregateTotals | rec.py:2568-2597 | total items equals the count of stored detections at or above the threshold, summed over records, and equals the sum of the class counter |
| Analytics.AggregateCountsPerKey | rec.py:2568-2597 | each class's counter entry is its number of passing detections |
| Analytics.TotalItemsMonotone | rec.py:2568-2574 | raising the threshold never raises total items |
| Analytics.AvgConfPercentBounded | rec.py:2602-2603 | with confidences in [0, 1] the average-confidence card lies in [0, 100] |
| Analytics.AvgProcBetween | rec.py:2575-2601 | the average time lies between the fastest and slowest recorded inference |
| Analytics.ThreeRecordScenario | rec.py:2546-2605 | three records at threshold 0.5: total 2, 3 records, most frequent PET with 1 |
| Controls.Buttons | rec.py:1790-1799 | an arrow is enabled only when navigation is possible; a single image disables both |
| Controls.Step | rec.py:2134-2153 | prev moves one back only from index > 0, next one forward only below the last index, both only with a model and images; a valid index stays in range |
| Controls.ButtonsMatchSteps | Scripts/t-testing-4.1.py:1147-1155 | an enabled arrow always moves, and with the webcam off a handler moves only when its arrow is enabled |
| Controls.StepsKeepIndexValid | Scripts/t-testing-4.1.py:1410-1422 | any sequence of arrow presses keeps the index within [0, len-1] |
| Controls.CountLabel | rec.py:1801-1806 | the position label shows index+1 of the image count exactly when images are loaded and the webcam is off |
| Controls.EditThreshold | rec.py:956-989 | a typed value is taken exactly when it parses and lies in [0, 1]; otherwise the threshold stays |
| Controls.EditsKeepThresholdInUnit | rec.py:956-989 | whatever is typed, the threshold stays in [0, 1] |
| Controls.SliderValue | Scripts/t-testing-4.1.py:471-475 | a slider position lies within 1..100 |
| Controls.SliderThreshold | Scripts/t-testing-4.1.py:1187-1188 | slider value / 100 lies in [0.01, 1.0] |
| Controls.SliderThresholdsOrdered | Scripts/t-testing-4.1.py:1500-1501 | every slider threshold lies in [0.01, 1.0], and a higher slider position gives a higher threshold |
| Session.Initial | rec.py:421-442 | thresholds 0.5, no images, no history, no identities, webcam off; the invariant holds |
| Session.ModelLoaded | rec.py:495-501 | the stat classes become the six defaults and nothing else is touched |
| Session.ProcessImage | rec.py:1821-1910 | without a model or with an unreadable image only the statistics are cleared; otherwise history grows by at most one record and keeps its prefix; the invariant (ids, unique paths, thresholds, index) holds |
| Session.ProcessNewImage | rec.py:1847-1902 | for an image not yet stored, exactly one record is appended with the next id, the absolute path, the inference time, both thresholds and every detection at the floor confidence; the statistics count that record's detections reaching the threshold, show its inference time, and the export snapshot lists them in order numbered from 1 |
| Session.ReprocessUsesStoredDetections | rec.py:1843-1902 | reprocessing a stored image keeps history and shows and exports exactly the stored detections reaching the threshold, numbered from 1 |
| Session.WebcamTick | rec.py:2243-2372 | nothing happens with the webcam off; a lost camera stops it; the invariant holds |
| Session.WebcamTickRecords | rec.py:2287-2333 | the identity map holds exactly the frame's identities, the total shows one detection per track, and a record is stored exactly when some identity is new |
| Session.StopWebcam | rec.py:2167-2192 | the webcam stops and the export snapshot empties; identities, statistics and history stay |
| Session.StartWebcam | rec.py:2196-2224 | without a model or camera nothing changes; otherwise images, identities, snapshot and statistics are reset and the webcam runs iff the camera opened |
| Session.LoadImages | rec.py:1753-1763 | the new list replaces the old; a non-empty list makes its first image current; an empty one keeps the previous current path |
| Session.ChooseImages | rec.py:1808-1819 | without a model nothing changes (`dropEvent`, rec.py line 1744, gates the same way); a non-empty choice replaces the images, makes the first current and leaves the webcam off; an empty dialog choice only stops the webcam and an empty drop changes nothing |
| Session.Navigate | rec.py:2134-2153 | a move changes the index as Step says and makes that image current; otherwise nothing changes |
| Session.EditField | rec.py:956-989 | an accepted value sets exactly its own threshold; a refused one changes nothing |
| Session.ThresholdChangeKeepsHistory | rec.py:956-966 | changing the confidence threshold for an image already in history never changes the history |
| Session.ClearAll | rec.py:2039-2056 | a confirmed clear empties history, snapshot and statistics and keeps the identity memory; declining changes nothing |
| Session.Run | rec.py:421-442 | every run of handler events preserves the state invariant |
| Archive.InPeriod | Scripts/t-testing-4.1.py:1680-1685 | exactly the rows whose timestamp lies within the period |
| Archive.DecodedLength | Scripts/t-testing-4.1.py:1693-1694 | total items is the sum of the decoded object lists' lengths, with no confidence filter |
| Archive.UndecodableRowSkipped | Scripts/t-testing-4.1.py:1686-1706 | a row that fails to decode contributes nothing, as if absent |
| Archive.DecodedMembership | Scripts/t-testing-4.1.py:1687-1706 | an object is counted exactly when some decodable row holds it |
| Archive.CountPeriod | Scripts/t-testing-4.1.py:1634-1715 | no model gives N/A; every class starts at 0; an empty period shows zeros; total items is the sum of decoded lengths; class counts add up to at most the total; average confidence is 0 with no objects; average time times the row count is the summed time |
| Archive.ArchiveCountsPerClass | Scripts/t-testing-4.1.py:1697-1703 | each class total counts the objects whose first matching class it is |
| Archive.ArchiveAvgConfBounded | Scripts/t-testing-4.1.py:1714 | with confidences in [0, 1] the average-confidence card lies in [0, 100] |
| Archive.AnalyzePeriodCounts | Scripts/t-testing-4.1.py:1634-1703 | with a model loaded, one to six class totals, one per stat card, each the first-match count of the period's decoded objects; an object is counted exactly when a decodable row stamped within the period holds it |
| Archive.FilterClauses | Scripts/t-testing-4.1.py:1868-1877 | the filter clauses carry one value per placeholder, and add values exactly when a filter is active |
| Archive.AsWrittenBindsIffNoFilter | Scripts/t-testing-4.1.py:1862-1884 | as written, both statements supply one value per placeholder exactly when no filter is active |
| Archive.SearchCountMismatch | Scripts/t-testing-4.1.py:1863-1871 | searching for "pet" gives the count statement 2 placeholders and 4 values |
| Archive.BuildQueriesBind | Scripts/t-testing-4.1.py:1862-1884 | with the clauses in both texts, both statements bind, share one WHERE clause, and the data statement adds only page size and offset |
| Archive.GalleryPageCount | Scripts/t-testing-4.1.py:1893-1894 | ceil(count / 12), at least 1 |
| Archive.Window | Scripts/t-testing-4.1.py:1880-1883 | at most 12 rows starting at the offset, non-empty when the offset lies within the matching rows |
| Archive.Tiles | Scripts/t-testing-4.1.py:1904-2004 | a fetched row gets a tile exactly when its detections decode; when all decode, every fetched row gets one, in order |
| Archive.Show | Scripts/t-testing-4.1.py:1886-1933 | statements that do not bind give page 1 of 1 with both arrows off and an empty grid; otherwise the requested page unclamped, ceil(count/12) pages, a tile for each decodable row from offset (page-1)*12, prev iff page > 1, next iff page < pages |
| Archive.FilteredGalleryFailsAsWritten | Scripts/t-testing-4.1.py:1862-1933 | as written, any active filter ends on the error view whatever the database holds; with no filter the handler behaves as corrected |
| Archive.RefreshShowsPage | Scripts/t-testing-4.1.py:1880-1921 | the corrected handler shows the requested page, ceil(count/12) pages, rows from (page-1)*12, prev iff page > 1, next iff page < pages |
| Archive.GalleryPageHoldsRow | Scripts/t-testing-4.1.py:1880-1907 | every matching row is fetched for page position / 12 + 1, within the page count, and has a tile there exactly when its detections decode |
| Archive.PrevPage | Scripts/t-testing-4.1.py:2018-2020 | the page stays at least 1, and nothing changes on page 1 |
| Archive.NextPage | Scripts/t-testing-4.1.py:2022-2024 | the page stays at least 1, and nothing changes on the last page |
| Archive.ArrowsReachFilledPages | Scripts/t-testing-4.1.py:2018-2024 | while the data is unchanged, the arrows only reach pages that exist and fetch rows |

## Left out

- Qt widgets, layouts, style sheets, the splash screen, the intro video, the accordion, the charts and message boxes. They are presentation only.
- YOLO inference and model loading, including the background loading thread. The detector is a parameter `(confidence, IoU) -> detections, time`.
- StrongSORT's `update` and `increment_ages`. The tracker is a parameter from center-form boxes to tracks.
- cv2 image reading, video capture, drawing and `getTextSize`. Reading is an `Option`-valued parameter and text size is a parameter. The drawn pixels are not modelled, only the coordinates.
- SQLite and JSON in the database variant. A row arrives decoded, or as None when its timestamp or JSON does not parse; an analytics row that does not decode is skipped, and so is the gallery tile of one. A query is answered by the rows satisfying its WHERE clause, so `LIKE` matching, SQL `AVG` over NULL and timestamp string comparison are not modelled.
- CSV export writing and file-existence checks. They are file I/O.
- Float formatting (`:.2f`, `.1f`) and `round(conf, 4)` on storage. Confidences are reals taken as delivered.
- Statistics.Percent: integer division stands for `int(count / total * 100)`. The float form can be one lower; only the [0, 100] bound is claimed for both.
- `time.time()` and `datetime.now()` are opaque parameters. The period boundaries of the analytics combo box and the gallery's date pickers are parameters.
- The daily-detections chart and the confidence-trend chart. They are datetime arithmetic feeding a chart.
- `update_detection_stats_card` (rec.py:991-998). It writes the newest record's unfiltered total and time. Under the corrected clearing the statistics projection always overwrites them. As written, a new image whose detections all fall below the threshold projects an empty list, and rec.py's clearing misses the total and time cards (see Findings). So rec.py keeps showing the record's unfiltered total and time, where the model shows 0 and the new time.
- The text of the type-filter combo box ("Filter by type: X") and its `split`. The filter is given as a class name or "all". In the database variant the box only ever offers "All".
- Session.BaseName: `os.path.basename` is modelled with '/' as the only separator.
- Lower-casing and `strip` cover ASCII letters and ASCII whitespace only.
- Exception paths (`except Exception`) around processing. The modelled operations do not raise, apart from the SQLite binding error, which is modelled.
- The export button, locked-id logging, resize handling and the history detail dialog. They hold no pipeline logic.
- The contents of a gallery tile (thumbnail, "class (+n)" caption, date). They are presentation only; which rows get a tile is modelled.
- Archive.CountPeriod: the class counts are kept per list position. With duplicate class names the source's dictionary merges them, and the first position holds the same count.
- Statistics.ProjectAsWritten is used only to exhibit the finding below. The session uses the corrected clearing throughout: Statistics.Project for every processed list, and Statistics.Cleared, which also zeroes the total and time cards, wherever rec.py calls `clear_detection_statistics_display` (Session.ModelLoaded, the no-model and unreadable-image paths of Session.ProcessImage, Session.StartWebcam and Session.ClearAll). As written, those handlers would leave the total and time cards stale.

## Findings

| source | as written | input that shows it | evidently intended | confidence | as-written member | corrected member |
|---|---|---|---|---|---|---|
| Scripts/t-testing-4.1.py:1862-1884 | the count and data statements are copied from the base clause before the search and type clauses are appended, but the filter values are still added to the parameters | search text "pet": the count statement has 2 placeholders and gets 4 values, SQLite raises, and the gallery resets to page 1 of 1 with both arrows off and no items | the filter clauses are part of both statements | not executed | Archive.FilteredGalleryFailsAsWritten | Archive.RefreshShowsPage |
| rec.py:2005-2026 | clearing the statistics looks up `stat_total_items` and `stat_proc_time`, which rec.py never assigns (it creates `stat_total_items_card` and `stat_total_items_value_label`), so the total and time cards are not reset | a frame with one detection followed by a frame with none: the class cards read 0 but the total still reads 1 and the time is the first frame's | clearing resets the total to 0 and the time card shows the empty frame's time | not executed | Statistics.StaleTotalAsWritten | Statistics.Project |

=== FILE: analytics.dfy ===
/** The analytics page of rec.py (rec.py:2523-2605): every stored record is
    re-filtered at the current confidence threshold, the passing detections are
    counted per class in a `collections.Counter`, and five summary cards are
    filled in. The pie chart is not modelled. */
module Analytics {
  import opened Wrappers
  import opened Text
  import opened Detections
  import opened Normalizer
  import opened HistoryStore

  // ---------------------------------------------------------------------------
  // collections.Counter, as an insertion-ordered association list

  datatype Entry = Entry(key: string, count: nat)

  predicate DistinctKeys(c: seq<Entry>) {
    forall i, j :: 0 <= i < j < |c| ==> c[i].key != c[j].key
  }

  predicate PositiveCounts(c: seq<Entry>) {
    forall i :: 0 <= i < |c| ==> c[i].count > 0
  }

  /** `counter[key]`: 0 for a key never counted. */
  function CountOf(c: seq<Entry>, key: string): nat {
    if |c| == 0 then 0 else if c[0].key == key then c[0].count else CountOf(c[1..], key)
  }

  function Total(c: seq<Entry>): nat {
    if |c| == 0 then 0 else c[0].count + Total(c[1..])
  }

  /** `counter[key] += 1`: a new key goes to the end, an existing one keeps its place. */
  function Bump(c: seq<Entry>, key: string): (r: seq<Entry>)
    ensures |r| == |c| || |r| == |c| + 1
    ensures forall i :: 0 <= i < |c| ==> r[i].key == c[i].key
    ensures |r| == |c| + 1 ==> r[|c|] == Entry(key, 1)
    ensures Total(r) == Total(c) + 1
  {
    if |c| == 0 then [Entry(key, 1)]
    else if c[0].key == key then [Entry(key, c[0].count + 1)] + c[1..]
    else [c[0]] + Bump(c[1..], key)
  }

  /** Bumping adds one to the bumped key's count and leaves every other count alone. */
  lemma {:induction false} BumpCounts(c: seq<Entry>, key: string, k: string)
    ensures CountOf(Bump(c, key), k) == CountOf(c, k) + (if k == key then 1 else 0)
  {
    if |c| > 0 && c[0].key != key {
      BumpCounts(c[1..], key, k);
    }
  }

  /** A bumped counter gains an entry exactly when the key was new. */
  lemma {:induction false} BumpGrowsIffNew(c: seq<Entry>, key: string)
    ensures (exists i :: 0 <= i < |c| && c[i].key == key) <==> |Bump(c, key)| == |c|
  {
    if |c| > 0 && c[0].key != key {
      BumpGrowsIffNew(c[1..], key);
      if exists i :: 0 <= i < |c| && c[i].key == key {
        var i :| 0 <= i < |c| && c[i].key == key;
        assert c[1..][i - 1] == c[i];
      }
    }
  }

  /** Bumping keeps keys distinct and counts positive. */
  lemma {:induction false} BumpKeepsShape(c: seq<Entry>, key: string)
    requires DistinctKeys(c) && PositiveCounts(c)
    ensures DistinctKeys(Bump(c, key)) && PositiveCounts(Bump(c, key))
  {
    if |c| > 0 {
      var r := Bump(c, key);
      if c[0].key != key {
        BumpKeepsShape(c[1..], key);
        var rest := Bump(c[1..], key);
        assert r == [c[0]] + rest;
        forall j | 1 <= j < |r| ensures r[j].key != c[0].key {
          if j < |c| {
            assert r[j].key == c[j].key;
          } else {
            assert r[j] == rest[|c[1..]|];
          }
        }
        forall i, j | 0 <= i < j < |r| ensures r[i].key != r[j].key {
          if i > 0 {
            assert r[i] == rest[i - 1] && r[j] == rest[j - 1];
          }
        }
      } else {
        assert r == [Entry(key, c[0].count + 1)] + c[1..];
        assert forall i :: 0 <= i < |r| ==> r[i].key == c[i].key;
      }
    }
  }

  /** `Counter(keys)`: the keys counted in order. */
  function CountKeys(keys: seq<string>): (c: seq<Entry>)
    ensures |c| <= |keys|
    ensures c == [] <==> keys == []
    ensures Total(c) == |keys|
    ensures DistinctKeys(c) && PositiveCounts(c)
  {
    if |keys| == 0 then []
    else
      var init := CountKeys(keys[..|keys| - 1]);
      BumpKeepsShape(init, keys[|keys| - 1]);
      Bump(init, keys[|keys| - 1])
  }

  /** The counter counts every key exactly as often as it occurs. */
  lemma {:induction false} CountKeysCounts(keys: seq<string>, k: string)
    ensures CountOf(CountKeys(keys), k) == multiset(keys)[k]
  {
    if |keys| > 0 {
      var init := keys[..|keys| - 1];
      CountKeysCounts(init, k);
      BumpCounts(CountKeys(init), keys[|keys| - 1], k);
      assert keys == init + [keys[|keys| - 1]];
      assert multiset(keys) == multiset(init) + multiset{keys[|keys| - 1]};
    }
  }

  /** `counter.most_common(1)`: the position of the first entry with the
      largest count, None for an empty counter. */
  function MostCommon(c: seq<Entry>): (r: Option<nat>)
    ensures r.None? <==> c == []
    ensures r.Some? ==> r.value < |c|
    ensures r.Some? ==> forall j :: 0 <= j < |c| ==> c[j].count <= c[r.value].count
    ensures r.Some? ==> forall j :: 0 <= j < r.value ==> c[j].count < c[r.value].count
    ensures r.Some? ==> FirstLargest(c, c[r.value])
  {
    if |c| == 0 then None
    else
      match MostCommon(c[1..])
      case None => Some(0)
      case Some(m) => if c[0].count >= c[1..][m].count then Some(0) else Some(m + 1)
  }

  // ---------------------------------------------------------------------------
  // The aggregation

  /** First position of a model class name equal to `lowered` once lower-cased. */
  function ModelNameFrom(names: seq<string>, lowered: string, k: nat): (r: Option<nat>)
    requires k <= |names|
    ensures r.Some? ==> k <= r.value < |names| && Lower(names[r.value]) == lowered
    ensures r.Some? ==> forall j :: k <= j < r.value ==> Lower(names[j]) != lowered
    ensures r.None? ==> forall j :: k <= j < |names| ==> Lower(names[j]) != lowered
    decreases |names| - k
  {
    if k == |names| then None
    else if Lower(names[k]) == lowered then Some(k)
    else ModelNameFrom(names, lowered, k + 1)
  }

  /** The key a detection is counted under: the model's own spelling of its
      class if some model class equals it ignoring case, else the first
      defined plastic contained in it, else the raw class. */
  function AnalyticsKey(cls: string, names: seq<string>): (r: string)
    ensures (exists j :: 0 <= j < |names| && Lower(names[j]) == Lower(cls)) ==>
      exists j :: 0 <= j < |names| && Lower(names[j]) == Lower(cls) && r == names[j]
        && forall i :: 0 <= i < j ==> Lower(names[i]) != Lower(cls)
    ensures (forall j :: 0 <= j < |names| ==> Lower(names[j]) != Lower(cls)) ==>
      r == Normalize(cls, DefinedPlastics, LiveColors).name
  {
    match ModelNameFrom(names, Lower(cls), 0)
    case Some(j) => names[j]
    case None =>
      match FirstMatch(cls, DefinedPlastics)
      case Some(i) => DefinedPlastics[i]
      case None => cls
  }

  /** The detections of every record that pass `threshold`, record by record. */
  function Passing(h: seq<Record>, threshold: real): seq<Detection> {
    if |h| == 0 then [] else FilterByConfidence(h[0].detections, threshold) + Passing(h[1..], threshold)
  }

  /** Number of detections of `dets` at or above `threshold`, counted one by one. */
  function CountAtLeast(dets: seq<Detection>, threshold: real): nat {
    if |dets| == 0 then 0
    else (if dets[0].conf >= threshold then 1 else 0) + CountAtLeast(dets[1..], threshold)
  }

  /** Stored detections at or above `threshold`, over all records. */
  function StoredAtLeast(h: seq<Record>, threshold: real): nat {
    if |h| == 0 then 0 else CountAtLeast(h[0].detections, threshold) + StoredAtLeast(h[1..], threshold)
  }

  function Keys(dets: seq<Detection>, names: seq<string>): (r: seq<string>)
    ensures |r| == |dets|
    ensures forall i :: 0 <= i < |dets| ==> r[i] == AnalyticsKey(dets[i].cls, names)
  {
    if |dets| == 0 then [] else [AnalyticsKey(dets[0].cls, names)] + Keys(dets[1..], names)
  }

  function SumConf(dets: seq<Detection>): real {
    if |dets| == 0 then 0.0 else dets[0].conf + SumConf(dets[1..])
  }

  function SumProc(h: seq<Record>): real {
    if |h| == 0 then 0.0 else h[0].procTimeMs + SumProc(h[1..])
  }

  /** `total / n`, with `n` non-zero. */
  function Mean(total: real, n: nat): (m: real)
    requires n > 0
    ensures m * (n as real) == total
  {
    total / (n as real)
  }

  /** The five cards: total items, average processing time, average
      confidence in percent, record count, and the most frequent class with
      its count (None shows "N/A"). */
  datatype AnalyticsView = AnalyticsView(totalItems: nat, avgProcMs: real, avgConfPercent: real,
                                         records: nat, mostFrequent: Option<Entry>)

  const EmptyView: AnalyticsView := AnalyticsView(0, 0.0, 0.0, 0, None)

  /** The card values for history `h` at `threshold`, given the model's class
      names; None when no model is loaded, in which case the cards keep what
      they showed. */
  function Aggregate(h: seq<Record>, threshold: real, model: Option<seq<string>>): (r: Option<AnalyticsView>)
    ensures r.None? <==> model.None?
    ensures model.Some? && h == [] ==> r == Some(EmptyView)
    ensures r.Some? ==> r.value.records == |h|
    ensures r.Some? ==> (r.value.mostFrequent.None? <==> r.value.totalItems == 0)
    ensures r.Some? ==> r.value.totalItems == |Passing(h, threshold)|
  {
    if model.None? then None
    else if h == [] then Some(EmptyView)
    else
      var shown := Passing(h, threshold);
      var counter := CountKeys(Keys(shown, model.value));
      Some(AggregateOf(h, shown, counter, MostCommon(counter)))
  }

  /** The cards of a non-empty history from its passing detections, their
      counter and the counter's most common position. */
  function AggregateOf(h: seq<Record>, shown: seq<Detection>, counter: seq<Entry>, top: Option<nat>): (v: AnalyticsView)
    requires h != []
    requires top.Some? ==> top.value < |counter|
    requires top.None? <==> counter == []
    requires counter != [] ==> top.Some? && FirstLargest(counter, counter[top.value])
    ensures v.avgProcMs == Mean(SumProc(h), |h|)
    ensures shown == [] ==> v.avgConfPercent == 0.0
    ensures shown != [] ==> v.avgConfPercent == Mean(SumConf(shown), |shown|) * 100.0
    ensures v.mostFrequent.None? <==> counter == []
    ensures v.mostFrequent.Some? ==> FirstLargest(counter, v.mostFrequent.value)
  {
    var avgConf := if |shown| == 0 then 0.0 else Mean(SumConf(shown), |shown|) * 100.0;
    var most := match top
                case None => None
                case Some(i) => Some(counter[i]);
    AnalyticsView(|shown|, Mean(SumProc(h), |h|), avgConf, |h|, most)
  }

  lemma {:induction false} FilterLengthCounts(dets: seq<Detection>, threshold: real)
    ensures |FilterByConfidence(dets, threshold)| == CountAtLeast(dets, threshold)
  {
    if |dets| > 0 {
      FilterLengthCounts(dets[1..], threshold);
    }
  }

  lemma {:induction false} PassingCountsStored(h: seq<Record>, threshold: real)
    ensures |Passing(h, threshold)| == StoredAtLeast(h, threshold)
  {
    if |h| > 0 {
      FilterLengthCounts(h[0].detections, threshold);
      PassingCountsStored(h[1..], threshold);
    }
  }

  /** Total items is the number of stored detections, over all records, whose
      confidence reaches the current threshold; and the per-class counts add
      up to it, so every passing detection is counted under exactly one key. */
  lemma AggregateTotals(h: seq<Record>, threshold: real, names: seq<string>)
    requires h != []
    ensures var v := Aggregate(h, threshold, Some(names)).value;
      && v.totalItems == StoredAtLeast(h, threshold)
      && v.totalItems == Total(CountKeys(Keys(Passing(h, threshold), names)))
  {
    PassingCountsStored(h, threshold);
  }

  /** Every passing detection is counted under its key: the counter holds, for
      each key, the number of passing detections that map to it. */
  lemma AggregateCountsPerKey(h: seq<Record>, threshold: real, names: seq<string>, key: string)
    ensures CountOf(CountKeys(Keys(Passing(h, threshold), names)), key)
         == multiset(Keys(Passing(h, threshold), names))[key]
  {
    CountKeysCounts(Keys(Passing(h, threshold), names), key);
  }

  /** The three remaining cards: the average time is the summed time shared
      equally over the records, the average confidence is the mean passing
      confidence in percent (0 when nothing passes), and the most frequent
      class is the counter's first entry with the largest count. */
  lemma AggregateCards(h: seq<Record>, threshold: real, names: seq<string>)
    requires h != []
    ensures var v := Aggregate(h, threshold, Some(names)).value;
      var shown := Passing(h, threshold);
      && v.avgProcMs == Mean(SumProc(h), |h|)
      && (shown == [] ==> v.avgConfPercent == 0.0)
      && (shown != [] ==> v.avgConfPercent == Mean(SumConf(shown), |shown|) * 100.0)
    ensures var v := Aggregate(h, threshold, Some(names)).value;
      var c := CountKeys(Keys(Passing(h, threshold), names));
      && (v.mostFrequent.None? <==> c == [])
      && (v.mostFrequent.Some? ==> FirstLargest(c, v.mostFrequent.value))
  {
    var v := Aggregate(h, threshold, Some(names)).value;
    var shown := Passing(h, threshold);
    var c := CountKeys(Keys(shown, names));
    var top := MostCommon(c);
    assert v == AggregateOf(h, shown, c, top);
  }

  /** `e` is the first entry of `c` with the largest count. */
  predicate FirstLargest(c: seq<Entry>, e: Entry) {
    exists i :: 0 <= i < |c| && e == c[i]
      && (forall j :: 0 <= j < |c| ==> c[j].count <= c[i].count)
      && (forall j :: 0 <= j < i ==> c[j].count < c[i].count)
  }

  lemma {:induction false} CountAtLeastMonotone(dets: seq<Detection>, t1: real, t2: real)
    requires t1 <= t2
    ensures CountAtLeast(dets, t2) <= CountAtLeast(dets, t1)
  {
    if |dets| > 0 {
      CountAtLeastMonotone(dets[1..], t1, t2);
    }
  }

  lemma {:induction false} StoredAtLeastMonotone(h: seq<Record>, t1: real, t2: real)
    requires t1 <= t2
    ensures StoredAtLeast(h, t2) <= StoredAtLeast(h, t1)
  {
    if |h| > 0 {
      CountAtLeastMonotone(h[0].detections, t1, t2);
      StoredAtLeastMonotone(h[1..], t1, t2);
    }
  }

  /** Raising the threshold never raises the total-items card. */
  lemma TotalItemsMonotone(h: seq<Record>, t1: real, t2: real, names: seq<string>)
    requires t1 <= t2
    ensures Aggregate(h, t2, Some(names)).value.totalItems <= Aggregate(h, t1, Some(names)).value.totalItems
  {
    if h != [] {
      AggregateTotals(h, t1, names);
      AggregateTotals(h, t2, names);
      StoredAtLeastMonotone(h, t1, t2);
    }
  }

  predicate ConfidencesInUnit(dets: seq<Detection>) {
    forall i :: 0 <= i < |dets| ==> 0.0 <= dets[i].conf <= 1.0
  }

  lemma {:induction false} SumConfBounds(dets: seq<Detection>)
    requires ConfidencesInUnit(dets)
    ensures 0.0 <= SumConf(dets) <= |dets| as real
  {
    if |dets| > 0 {
      SumConfBounds(dets[1..]);
    }
  }

  lemma {:induction false} PassingInUnit(h: seq<Record>, threshold: real)
    requires forall r :: r in h ==> ConfidencesInUnit(r.detections)
    ensures ConfidencesInUnit(Passing(h, threshold))
  {
    if |h| > 0 {
      PassingInUnit(h[1..], threshold);
      var head := FilterByConfidence(h[0].detections, threshold);
      var rest := Passing(h[1..], threshold);
      assert h[0] in h;
      forall i | 0 <= i < |head| ensures 0.0 <= head[i].conf <= 1.0 {
        assert head[i] in h[0].detections;
      }
      assert Passing(h, threshold) == head + rest;
    }
  }

  /** With model confidences in [0, 1], the average-confidence card lies in [0, 100]. */
  lemma AvgConfPercentBounded(h: seq<Record>, threshold: real, names: seq<string>)
    requires forall r :: r in h ==> ConfidencesInUnit(r.detections)
    ensures 0.0 <= Aggregate(h, threshold, Some(names)).value.avgConfPercent <= 100.0
  {
    if h != [] {
      var shown := Passing(h, threshold);
      PassingInUnit(h, threshold);
      SumConfBounds(shown);
      if |shown| > 0 {
        MeanBetween(SumConf(shown), |shown|, 0.0, 1.0);
      }
    }
  }

  lemma {:induction false} SumProcBounds(h: seq<Record>, lo: real, hi: real)
    requires forall i :: 0 <= i < |h| ==> lo <= h[i].procTimeMs <= hi
    ensures (|h| as real) * lo <= SumProc(h) <= (|h| as real) * hi
  {
    if |h| > 0 {
      var t := h[1..];
      assert forall i :: 0 <= i < |t| ==> t[i] == h[i + 1];
      SumProcBounds(t, lo, hi);
      ScaleStep(|t| as real, lo);
      ScaleStep(|t| as real, hi);
    }
  }

  lemma ScaleStep(n: real, x: real)
    ensures (n + 1.0) * x == n * x + x
  {
  }

  /** A mean of `n` values within [lo, hi] lies within [lo, hi]. */
  lemma MeanBetween(total: real, n: nat, lo: real, hi: real)
    requires n > 0
    requires (n as real) * lo <= total <= (n as real) * hi
    ensures lo <= Mean(total, n) <= hi
  {
  }

  /** The average-processing-time card lies between the fastest and the
      slowest recorded inference. */
  lemma AvgProcBetween(h: seq<Record>, threshold: real, names: seq<string>, lo: real, hi: real)
    requires h != []
    requires forall i :: 0 <= i < |h| ==> lo <= h[i].procTimeMs <= hi
    ensures lo <= Aggregate(h, threshold, Some(names)).value.avgProcMs <= hi
  {
    SumProcBounds(h, lo, hi);
    MeanBetween(SumProc(h), |h|, lo, hi);
  }

  const ScenarioNames: seq<string> := ["PET", "HDPE", "PVC"]

  function ScenarioDetection(cls: string, conf: real): Detection {
    Detection(cls, conf, Box(0, 0, 10, 10), None)
  }

  /** Three stored records holding {0.9 PET, 0.3 HDPE}, {0.6 PVC} and nothing. */
  function ScenarioHistory(): seq<Record> {
    [Record(1, 1, Some("a.jpg"), File, 10.0, 0.5, 0.5,
            [ScenarioDetection("PET", 0.9), ScenarioDetection("HDPE", 0.3)]),
     Record(2, 2, Some("b.jpg"), File, 10.0, 0.5, 0.5, [ScenarioDetection("PVC", 0.6)]),
     Record(3, 3, Some("c.jpg"), File, 10.0, 0.5, 0.5, [])]
  }

  lemma ScenarioPassing()
    ensures Passing(ScenarioHistory(), 0.5) == [ScenarioDetection("PET", 0.9), ScenarioDetection("PVC", 0.6)]
  {
    var h := ScenarioHistory();
    assert Passing(h[2..], 0.5) == [];
    assert Passing(h[1..], 0.5) == [ScenarioDetection("PVC", 0.6)];
    assert FilterByConfidence(h[0].detections, 0.5) == [ScenarioDetection("PET", 0.9)];
  }

  lemma ScenarioKeys()
    ensures Keys([ScenarioDetection("PET", 0.9), ScenarioDetection("PVC", 0.6)], ScenarioNames) == ["PET", "PVC"]
  {
    assert Lower("PET") == "pet";
    assert ModelNameFrom(ScenarioNames, "pet", 0) == Some(0);
    assert Lower("PVC") == "pvc";
    assert Lower(ScenarioNames[0]) == "pet";
    assert Lower(ScenarioNames[1]) == "hdpe";
    assert ModelNameFrom(ScenarioNames, "pvc", 0) == Some(2);
  }

  lemma ScenarioCounter()
    ensures CountKeys(["PET", "PVC"]) == [Entry("PET", 1), Entry("PVC", 1)]
  {
    assert ["PET", "PVC"][..1] == ["PET"];
    assert CountKeys(["PET"]) == [Entry("PET", 1)];
  }

  /** The three records aggregated at threshold 0.5: two items, counted PET 1
      and PVC 1, with PET (counted first) as the most frequent class. */
  lemma ThreeRecordScenario()
    ensures var v := Aggregate(ScenarioHistory(), 0.5, Some(ScenarioNames)).value;
      && v.totalItems == 2
      && v.records == 3
      && v.mostFrequent == Some(Entry("PET", 1))
    ensures CountKeys(Keys(Passing(ScenarioHistory(), 0.5), ScenarioNames)) == [Entry("PET", 1), Entry("PVC", 1)]
  {
    ScenarioPassing();
    ScenarioKeys();
    ScenarioCounter();
    var c := [Entry("PET", 1), Entry("PVC", 1)];
    assert MostCommon(c) == Some(0);
  }
}

=== FILE: annotator.dfy ===
/** The annotator `draw_custom_boxes_from_list`: for every displayed detection
    it resolves the display class and colour, places the label, and produces one
    export row; the rows replace the previous export snapshot (rec.py:1914-2003,
    Scripts/t-testing-4.1.py:1247-1308). Pixels are not modelled: the result is
    the list of drawing instructions. */
module Annotator {
  import opened Wrappers
  import opened Detections
  import opened Normalizer

  /** `cv2.getTextSize` of a label: width, height and baseline in pixels. */
  datatype TextSize = TextSize(width: nat, height: nat, baseline: nat)

  const OffsetFromBox: int := 5
  const BackgroundPaddingVertical: int := 2
  const TextHorizontalPadding: int := 3

  /** The label background rectangle, the text anchor, whether the label was
      moved below the box, and whether the background is drawn at all. */
  datatype Placement = Placement(bgX1: int, bgY1: int, bgX2: int, bgY2: int,
                                 textX: int, baselineY: int, below: bool, drawBackground: bool)

  function Max(a: int, b: int): int { if a >= b then a else b }
  function Min(a: int, b: int): int { if a <= b then a else b }

  /** Label placement: above the box, flipped below it when the background
      would start above the image's top edge; horizontally clamped into
      [0, imageWidth]; the background is drawn only when it is not empty. In
      both positions the background is the text height plus padding tall. */
  function PlaceLabel(box: Box, size: TextSize, imageWidth: int): (p: Placement)
    ensures p.below <==> box.y1 - size.height - OffsetFromBox - BackgroundPaddingVertical < 0
    ensures !p.below ==> 0 <= p.bgY1 && p.baselineY < box.y1
    ensures p.below ==> p.baselineY > box.y2 && p.bgY1 >= box.y2 + OffsetFromBox - size.baseline / 2
    ensures p.bgY2 - p.bgY1 == size.height + BackgroundPaddingVertical + size.baseline / 2
    ensures 0 <= p.bgX1 && p.bgX2 <= imageWidth
    ensures 0 <= box.x1 && box.x1 + size.width + 2 * TextHorizontalPadding <= imageWidth ==>
      p.bgX1 == box.x1 && p.bgX2 - p.bgX1 == size.width + 2 * TextHorizontalPadding
    ensures p.textX >= p.bgX1 + TextHorizontalPadding && p.textX >= box.x1 + TextHorizontalPadding
    ensures p.drawBackground <==> p.bgX1 < p.bgX2 && p.bgY1 < p.bgY2
  {
    var aboveBaseline := box.y1 - OffsetFromBox;
    var aboveTop := box.y1 - size.height - OffsetFromBox - BackgroundPaddingVertical;
    var aboveBottom := box.y1 - OffsetFromBox + size.baseline / 2;
    var below := aboveTop < 0;
    var baselineY := if below then box.y2 + size.height + OffsetFromBox else aboveBaseline;
    var bgY1 := if below then box.y2 + OffsetFromBox - size.baseline / 2 else aboveTop;
    var bgY2 := if below then box.y2 + size.height + OffsetFromBox + BackgroundPaddingVertical else aboveBottom;
    var bgX1 := Max(0, box.x1);
    var bgX2 := Min(imageWidth, box.x1 + size.width + 2 * TextHorizontalPadding);
    Placement(bgX1, bgY1, bgX2, bgY2, Max(box.x1, bgX1) + TextHorizontalPadding, baselineY,
              below, bgX1 < bgX2 && bgY1 < bgY2)
  }

  /** A box whose top edge is the image's top edge always gets its label below. */
  lemma TopEdgeBoxLabelBelow(box: Box, size: TextSize, imageWidth: int)
    requires box.y1 == 0
    ensures PlaceLabel(box, size, imageWidth).below
  {
  }

  /** The two application variants: the in-memory one with tracking
      (rec.py) and the database one (Scripts/t-testing-4.1.py). */
  datatype Variant = Live | Archive

  function ColorTable(v: Variant): map<string, Color> {
    if v.Live? then LiveColors else ArchiveColors
  }

  /** The parts the label text `"[ID n: ]{name} {conf:.2f}[ (low confidence)]"`
      is made of; the text itself (float formatting) is not modelled. */
  datatype LabelSpec = LabelSpec(trackId: Option<int>, name: string, conf: real, lowConfidence: bool)

  const LowConfidenceBelow: real := 0.5

  const Black: Color := Color(0, 0, 0)
  const White: Color := Color(255, 255, 255)

  /** Font colour of the in-memory variant: black for the raw class names
      "PET", "HDPE" and "LDPE", white otherwise. The test runs on the raw name,
      before normalization. The database variant always draws white text. */
  function FontColor(v: Variant, rawName: string): (c: Color)
    ensures v.Archive? ==> c == White
    ensures v.Live? ==> (c == Black <==> rawName in ["PET", "HDPE", "LDPE"])
  {
    if v.Live? && rawName in ["PET", "HDPE", "LDPE"] then Black else White
  }

  /** One row of the CSV export snapshot. */
  datatype ExportRow = ExportRow(source: string, objectId: nat, className: string,
                                 conf: real, box: Box, trackId: Option<int>)

  /** Everything drawn for one detection. */
  datatype DrawnLabel = DrawnLabel(box: Box, color: Color, fontColor: Color, spec: LabelSpec,
                                   placement: Placement, textY: int)

  datatype Annotation = Annotation(rows: seq<ExportRow>, drawn: seq<DrawnLabel>)

  function Spec(v: Variant, d: Detection, name: string): LabelSpec {
    if v.Live? then LabelSpec(d.trackId, name, d.conf, d.conf < LowConfidenceBelow)
    else LabelSpec(None, name, d.conf, false)
  }

  /** The drawing and export row of the detection at position `i`. */
  function AnnotateOne(v: Variant, d: Detection, i: nat, classes: seq<string>, source: string,
                       imageWidth: int, measure: LabelSpec -> TextSize): (DrawnLabel, ExportRow)
  {
    var n := Normalize(d.cls, classes, ColorTable(v));
    var spec := Spec(v, d, n.name);
    var size := measure(spec);
    var p := PlaceLabel(d.box, size, imageWidth);
    var textY := if v.Live? then Max(size.height, p.baselineY) else p.baselineY;
    (DrawnLabel(d.box, n.color, FontColor(v, d.cls), spec, p, textY),
     ExportRow(source, i + 1, n.name, d.conf, d.box, if v.Live? then d.trackId else None))
  }

  function AnnotateFrom(v: Variant, dets: seq<Detection>, start: nat, classes: seq<string>, source: string,
                        imageWidth: int, measure: LabelSpec -> TextSize): (a: Annotation)
    ensures |a.rows| == |dets| && |a.drawn| == |dets|
    ensures forall i :: 0 <= i < |dets| ==>
      (a.drawn[i], a.rows[i]) == AnnotateOne(v, dets[i], start + i, classes, source, imageWidth, measure)
  {
    if |dets| == 0 then Annotation([], [])
    else
      var (d, r) := AnnotateOne(v, dets[0], start, classes, source, imageWidth, measure);
      var rest := AnnotateFrom(v, dets[1..], start + 1, classes, source, imageWidth, measure);
      Annotation([r] + rest.rows, [d] + rest.drawn)
  }

  /** The annotator. One export row per detection, in input order, numbered
      from 1, carrying the normalized class name, the confidence and box, and
      (in the tracking variant only) the track identity. Each box is drawn in
      its class colour with its label placed by `PlaceLabel`; the tracking
      variant never lets the text baseline rise above the text height. */
  function Annotate(v: Variant, dets: seq<Detection>, classes: seq<string>, source: string,
                    imageWidth: int, measure: LabelSpec -> TextSize): (a: Annotation)
    ensures |a.rows| == |dets| && |a.drawn| == |dets|
    ensures forall i :: 0 <= i < |dets| ==>
      var n := Normalize(dets[i].cls, classes, ColorTable(v));
      && a.rows[i].objectId == i + 1
      && a.rows[i].source == source
      && a.rows[i].className == n.name
      && a.rows[i].conf == dets[i].conf && a.rows[i].box == dets[i].box
      && a.rows[i].trackId == (if v.Live? then dets[i].trackId else None)
      && a.drawn[i].box == dets[i].box
      && a.drawn[i].color == n.color
      && a.drawn[i].spec.lowConfidence == (v.Live? && dets[i].conf < LowConfidenceBelow)
      && a.drawn[i].placement == PlaceLabel(dets[i].box, measure(a.drawn[i].spec), imageWidth)
      && (v.Live? ==> a.drawn[i].textY >= measure(a.drawn[i].spec).height)
  {
    AnnotateFrom(v, dets, 0, classes, source, imageWidth, measure)
  }

  /** Export rows carry class names that normalization leaves as they are, and
      distinct object ids. */
  lemma ExportRowsStable(v: Variant, dets: seq<Detection>, classes: seq<string>, source: string,
                         imageWidth: int, measure: LabelSpec -> TextSize)
    ensures var rows := Annotate(v, dets, classes, source, imageWidth, measure).rows;
      && (forall i :: 0 <= i < |rows| ==>
            Normalize(rows[i].className, classes, ColorTable(v)).name == rows[i].className)
      && (forall i, j :: 0 <= i < j < |rows| ==> rows[i].objectId < rows[j].objectId)
  {
    var rows := Annotate(v, dets, classes, source, imageWidth, measure).rows;
    forall i | 0 <= i < |rows|
      ensures Normalize(rows[i].className, classes, ColorTable(v)).name == rows[i].className
    {
      NormalizeIdempotent(dets[i].cls, classes, ColorTable(v));
    }
  }
}

=== FILE: controls.dfy ===
/** The small state machines around the detection view, common to both
    variants: stepping through the loaded images and enabling the arrow
    buttons (rec.py:1790-1806, 2134-2153; Scripts/t-testing-4.1.py:1147-1160,
    1410-1422), typed threshold inputs (rec.py:956-989) and the threshold
    sliders (Scripts/t-testing-4.1.py:471-475, 1187-1188, 1500-1501). */
module Controls {
  import opened Wrappers

  // ---------------------------------------------------------------------------
  // Image navigation

  /** The index is -1 with no images loaded, and a position in the list otherwise. */
  predicate IndexValid(paths: seq<string>, index: int) {
    if |paths| == 0 then index == -1 else 0 <= index < |paths|
  }

  /** Images are loaded, the webcam is off and a model is loaded. */
  predicate CanNavigate(paths: seq<string>, webcamRunning: bool, modelLoaded: bool) {
    |paths| > 0 && !webcamRunning && modelLoaded
  }

  datatype NavButtons = NavButtons(prevEnabled: bool, nextEnabled: bool)

  /** `update_navigation_buttons`. */
  function Buttons(paths: seq<string>, index: int, webcamRunning: bool, modelLoaded: bool): (b: NavButtons)
    ensures b.prevEnabled ==> CanNavigate(paths, webcamRunning, modelLoaded)
    ensures b.nextEnabled ==> CanNavigate(paths, webcamRunning, modelLoaded)
    ensures IndexValid(paths, index) && |paths| == 1 ==> !b.prevEnabled && !b.nextEnabled
  {
    var can := CanNavigate(paths, webcamRunning, modelLoaded);
    NavButtons(can && index > 0, can && index < |paths| - 1)
  }

  datatype Direction = Previous | Next

  /** `prev_image` / `next_image`: the new index when the handler moves,
      None when it returns without doing anything. The handlers check the
      model and the bounds, not the webcam. */
  function Step(d: Direction, paths: seq<string>, index: int, modelLoaded: bool): (r: Option<int>)
    ensures r.Some? ==> modelLoaded && |paths| > 0
    ensures r.Some? && d.Previous? ==> r.value == index - 1
    ensures r.Some? && d.Next? ==> r.value == index + 1
    ensures IndexValid(paths, index) && r.Some? ==> 0 <= r.value < |paths|
  {
    if !modelLoaded || |paths| == 0 then None
    else match d
      case Previous => if index > 0 then Some(index - 1) else None
      case Next => if index < |paths| - 1 then Some(index + 1) else None
  }

  /** An enabled arrow button always moves, and with the webcam off a handler
      moves only when its button is enabled. */
  lemma ButtonsMatchSteps(paths: seq<string>, index: int, webcamRunning: bool, modelLoaded: bool)
    ensures var b := Buttons(paths, index, webcamRunning, modelLoaded);
      && (b.prevEnabled ==> Step(Previous, paths, index, modelLoaded).Some?)
      && (b.nextEnabled ==> Step(Next, paths, index, modelLoaded).Some?)
      && (!webcamRunning ==>
            && (Step(Previous, paths, index, modelLoaded).Some? ==> b.prevEnabled)
            && (Step(Next, paths, index, modelLoaded).Some? ==> b.nextEnabled))
  {
  }

  /** Any sequence of arrow presses keeps the index valid. */
  lemma {:induction false} StepsKeepIndexValid(moves: seq<Direction>, paths: seq<string>, index: int, modelLoaded: bool)
    requires IndexValid(paths, index)
    ensures IndexValid(paths, Walk(moves, paths, index, modelLoaded))
    decreases |moves|
  {
    if |moves| > 0 {
      var next := Step(moves[0], paths, index, modelLoaded);
      StepsKeepIndexValid(moves[1..], paths, if next.Some? then next.value else index, modelLoaded);
    }
  }

  /** The index after pressing the arrows `moves` in order. */
  function Walk(moves: seq<Direction>, paths: seq<string>, index: int, modelLoaded: bool): int
    decreases |moves|
  {
    if |moves| == 0 then index
    else
      var next := Step(moves[0], paths, index, modelLoaded);
      Walk(moves[1..], paths, if next.Some? then next.value else index, modelLoaded)
  }

  /** `update_image_count_label`: the 1-based position and the number of images,
      or None for the "— / —" placeholder. */
  function CountLabel(paths: seq<string>, index: int, webcamRunning: bool): (r: Option<(int, nat)>)
    ensures r.Some? <==> |paths| > 0 && index != -1 && !webcamRunning
    ensures IndexValid(paths, index) && r.Some? ==> 1 <= r.value.0 <= r.value.1 == |paths|
  {
    if |paths| > 0 && index != -1 && !webcamRunning then Some((index + 1, |paths|)) else None
  }

  // ---------------------------------------------------------------------------
  // Typed thresholds (in-memory variant)

  predicate InUnit(x: real) {
    0.0 <= x <= 1.0
  }

  /** Outcome of editing a threshold field: the threshold now in force and
      whether the typed value was taken. */
  datatype ThresholdEdit = ThresholdEdit(value: real, accepted: bool)

  /** `update_confidence_threshold_from_input` and its IoU twin: `parsed` is
      `float(text)`, None when that raises; a value in [0, 1] is taken, and
      anything else keeps the previous threshold. */
  function EditThreshold(current: real, parsed: Option<real>): (r: ThresholdEdit)
    ensures r.accepted <==> parsed.Some? && InUnit(parsed.value)
    ensures r.accepted ==> r.value == parsed.value
    ensures !r.accepted ==> r.value == current
  {
    match parsed
    case Some(v) => if InUnit(v) then ThresholdEdit(v, true) else ThresholdEdit(current, false)
    case None => ThresholdEdit(current, false)
  }

  /** Whatever is typed, a threshold in [0, 1] stays in [0, 1]. */
  lemma {:induction false} EditsKeepThresholdInUnit(current: real, edits: seq<Option<real>>)
    requires InUnit(current)
    ensures InUnit(ApplyEdits(current, edits))
    decreases |edits|
  {
    if |edits| > 0 {
      EditsKeepThresholdInUnit(EditThreshold(current, edits[0]).value, edits[1..]);
    }
  }

  /** The threshold after typing `edits` in order. */
  function ApplyEdits(current: real, edits: seq<Option<real>>): real
    decreases |edits|
  {
    if |edits| == 0 then current else ApplyEdits(EditThreshold(current, edits[0]).value, edits[1..])
  }

  // ---------------------------------------------------------------------------
  // Threshold sliders (database variant)

  const SliderMin: int := 1
  const SliderMax: int := 100

  /** `QSlider.setValue` with the range 1..100: values outside are clamped. */
  function SliderValue(requested: int): (v: int)
    ensures SliderMin <= v <= SliderMax
    ensures SliderMin <= requested <= SliderMax ==> v == requested
  {
    if requested < SliderMin then SliderMin else if requested > SliderMax then SliderMax else requested
  }

  /** `slider.value() / 100.0`. */
  function SliderThreshold(value: int): (t: real)
    requires SliderMin <= value <= SliderMax
    ensures 0.01 <= t <= 1.0
    ensures t * 100.0 == value as real
  {
    value as real / 100.0
  }

  /** Every threshold handed to inference from the sliders lies in [0.01, 1.0],
      and distinct slider positions give distinct, equally ordered thresholds. */
  lemma SliderThresholdsOrdered(a: int, b: int)
    ensures 0.01 <= SliderThreshold(SliderValue(a)) <= 1.0
    ensures SliderValue(a) < SliderValue(b) ==> SliderThreshold(SliderValue(a)) < SliderThreshold(SliderValue(b))
  {
  }
}

=== FILE: dbarchive.dfy ===
/** The database-backed variant (Scripts/t-testing-4.1.py): the counting loop
    of its analytics view (lines 1634-1729) and the query building and
    pagination of its history gallery (lines 1845-1933, 2018-2024). The
    database itself is not modelled: a stored row arrives with its payload
    already decoded (None when the timestamp or the JSON does not parse), and
    a gallery query is answered by the rows that satisfy its WHERE clause. */
module Archive {
  import opened Wrappers
  import opened Text
  import opened Detections
  import opened Statistics
  import Analytics
  import StatClasses

  // ---------------------------------------------------------------------------
  // Analytics counting

  /** One row of the `detections` table as the analytics loop reads it. */
  datatype Row = Row(timestamp: int, procTimeMs: real, objects: Option<seq<Detection>>)

  /** The rows of the selected period (`timestamp BETWEEN ? AND ?`), in table order. */
  function InPeriod(rows: seq<Row>, start: int, end: int): (r: seq<Row>)
    ensures |r| <= |rows|
    ensures forall x :: x in r <==> x in rows && start <= x.timestamp <= end
  {
    if |rows| == 0 then []
    else (if start <= rows[0].timestamp <= end then [rows[0]] else []) + InPeriod(rows[1..], start, end)
  }

  /** What one row contributes: its objects, or nothing when it does not decode. */
  function Payload(r: Row): seq<Detection> {
    if r.objects.Some? then r.objects.value else []
  }

  /** The objects of every decodable row, row by row. */
  function Decoded(rows: seq<Row>): seq<Detection> {
    if |rows| == 0 then [] else Payload(rows[0]) + Decoded(rows[1..])
  }

  /** Sum of the lengths of the decodable rows' object lists. */
  function PayloadLengths(rows: seq<Row>): nat {
    if |rows| == 0 then 0
    else (if rows[0].objects.Some? then |rows[0].objects.value| else 0) + PayloadLengths(rows[1..])
  }

  lemma {:induction false} DecodedConcat(a: seq<Row>, b: seq<Row>)
    ensures Decoded(a + b) == Decoded(a) + Decoded(b)
  {
    if |a| == 0 {
      assert a + b == b;
    } else {
      assert (a + b)[1..] == a[1..] + b;
      DecodedConcat(a[1..], b);
    }
  }

  /** Every object counted, whatever its confidence: the total is the sum of
      the decoded lists' lengths. */
  lemma {:induction false} DecodedLength(rows: seq<Row>)
    ensures |Decoded(rows)| == PayloadLengths(rows)
  {
    if |rows| > 0 {
      DecodedLength(rows[1..]);
    }
  }

  /** A row that does not decode is skipped: the result is as if it were not there. */
  lemma UndecodableRowSkipped(rows: seq<Row>, i: nat)
    requires i < |rows| && rows[i].objects.None?
    ensures Decoded(rows) == Decoded(rows[..i] + rows[i + 1..])
  {
    assert rows == rows[..i] + ([rows[i]] + rows[i + 1..]);
    DecodedConcat(rows[..i], [rows[i]] + rows[i + 1..]);
    DecodedConcat(rows[..i], rows[i + 1..]);
    assert Decoded([rows[i]] + rows[i + 1..]) == Decoded(rows[i + 1..]) by {
      assert ([rows[i]] + rows[i + 1..])[1..] == rows[i + 1..];
    }
  }

  /** An object is counted exactly when some decodable row holds it. */
  lemma {:induction false} DecodedMembership(rows: seq<Row>, d: Detection)
    ensures d in Decoded(rows) <==>
      exists i :: 0 <= i < |rows| && rows[i].objects.Some? && d in rows[i].objects.value
  {
    if |rows| > 0 {
      DecodedMembership(rows[1..], d);
      if d in Decoded(rows[1..]) {
        var i :| 0 <= i < |rows[1..]| && rows[1..][i].objects.Some? && d in rows[1..][i].objects.value;
        assert rows[i + 1] == rows[1..][i];
      }
      if exists i :: 0 <= i < |rows| && rows[i].objects.Some? && d in rows[i].objects.value {
        var i :| 0 <= i < |rows| && rows[i].objects.Some? && d in rows[i].objects.value;
        if i > 0 {
          assert rows[1..][i - 1] == rows[i];
        }
      }
    }
  }

  function SumProcRows(rows: seq<Row>): real {
    if |rows| == 0 then 0.0 else rows[0].procTimeMs + SumProcRows(rows[1..])
  }

  /** The three summary cards and the per-class totals. */
  datatype ArchiveAnalytics = ArchiveAnalytics(totalItems: nat, avgProcMs: real, avgConfPercent: real,
                                               classCounts: seq<nat>)

  /** `update_analytics_view`: None when charts are unavailable or no model is
      loaded (the cards read "N/A"); otherwise every class starts at zero and,
      when the period holds rows, the decodable rows are counted. */
  function CountPeriod(rows: seq<Row>, classes: seq<string>, ready: bool): (r: Option<ArchiveAnalytics>)
    ensures r.None? <==> !ready
    ensures r.Some? ==> |r.value.classCounts| == |classes|
    ensures r.Some? && rows == [] ==> r.value == ArchiveAnalytics(0, 0.0, 0.0, Zeros(|classes|))
    ensures r.Some? ==> r.value.totalItems == PayloadLengths(rows)
    ensures r.Some? ==> Sum(r.value.classCounts) <= r.value.totalItems
    ensures r.Some? && Decoded(rows) == [] ==>
      r.value.avgConfPercent == 0.0 && forall i :: 0 <= i < |classes| ==> r.value.classCounts[i] == 0
    ensures r.Some? && rows != [] ==> r.value.avgProcMs * (|rows| as real) == SumProcRows(rows)
  {
    if !ready then None
    else if rows == [] then
      SumAllZero(Zeros(|classes|));
      Some(ArchiveAnalytics(0, 0.0, 0.0, Zeros(|classes|)))
    else
      var dets := Decoded(rows);
      DecodedLength(rows);
      BucketCountsSum(dets, classes);
      var avgConf := if |dets| == 0 then 0.0 else Analytics.Mean(Analytics.SumConf(dets), |dets|) * 100.0;
      Some(ArchiveAnalytics(|dets|, Analytics.Mean(SumProcRows(rows), |rows|), avgConf, BucketCounts(dets, classes)))
  }

  /** Each class total counts the decoded objects whose first matching class is that one. */
  lemma ArchiveCountsPerClass(rows: seq<Row>, classes: seq<string>, i: nat)
    requires i < |classes|
    ensures CountPeriod(rows, classes, true).value.classCounts[i] == ClassCount(Decoded(rows), classes, i)
  {
    BucketCountsPerClass(Decoded(rows), classes, i);
  }

  /** With stored confidences in [0, 1], the average-confidence card lies in [0, 100]. */
  lemma ArchiveAvgConfBounded(rows: seq<Row>, classes: seq<string>)
    requires Analytics.ConfidencesInUnit(Decoded(rows))
    ensures 0.0 <= CountPeriod(rows, classes, true).value.avgConfPercent <= 100.0
  {
    var dets := Decoded(rows);
    if rows != [] && |dets| > 0 {
      Analytics.SumConfBounds(dets);
      Analytics.MeanBetween(Analytics.SumConf(dets), |dets|, 0.0, 1.0);
    }
  }

  /** The whole counting step of `update_analytics_view`: the rows of the
      table within the period, counted against the stat-card classes of the
      loaded model; None unless charts are available and a model is loaded. */
  function AnalyzePeriod(table: seq<Row>, start: int, end: int, names: Option<seq<string>>,
                         chartsAvailable: bool): Option<ArchiveAnalytics>
  {
    CountPeriod(InPeriod(table, start, end), StatClasses.ArchiveStatClasses(names), chartsAvailable && names.Some?)
  }

  /** With a model loaded there are one to six class totals, one per stat
      card; each counts the decoded objects of the period whose first matching
      card class it is; and an object is counted exactly when some decodable
      row of the table, stamped within the period, holds it. */
  lemma AnalyzePeriodCounts(table: seq<Row>, start: int, end: int, names: seq<string>, d: Detection)
    ensures var classes := StatClasses.ArchiveStatClasses(Some(names));
      var a := AnalyzePeriod(table, start, end, Some(names), true).value;
      && 1 <= |a.classCounts| <= StatClasses.MaxCards
      && (forall i :: 0 <= i < |classes| ==>
            a.classCounts[i] == ClassCount(Decoded(InPeriod(table, start, end)), classes, i))
    ensures d in Decoded(InPeriod(table, start, end)) <==>
      exists x :: x in table && start <= x.timestamp <= end && x.objects.Some? && d in x.objects.value
  {
    var classes := StatClasses.ArchiveStatClasses(Some(names));
    var rows := InPeriod(table, start, end);
    forall i | 0 <= i < |classes|
      ensures CountPeriod(rows, classes, true).value.classCounts[i] == ClassCount(Decoded(rows), classes, i)
    {
      ArchiveCountsPerClass(rows, classes, i);
    }
    DecodedMembership(rows, d);
    if exists x :: x in table && start <= x.timestamp <= end && x.objects.Some? && d in x.objects.value {
      var x :| x in table && start <= x.timestamp <= end && x.objects.Some? && d in x.objects.value;
      assert x in rows;
      var k :| 0 <= k < |rows| && rows[k] == x;
    }
  }

  // ---------------------------------------------------------------------------
  // Gallery queries

  /** A piece of SQL text: literal text or a `?` placeholder. */
  datatype Sql = Kw(text: string) | Hole

  datatype Param = Text(value: string) | Number(n: int)

  datatype Statement = Statement(sql: seq<Sql>, params: seq<Param>)

  function Holes(sql: seq<Sql>): nat {
    if |sql| == 0 then 0 else (if sql[0].Hole? then 1 else 0) + Holes(sql[1..])
  }

  lemma {:induction false} HolesAppend(a: seq<Sql>, b: seq<Sql>)
    ensures Holes(a + b) == Holes(a) + Holes(b)
  {
    if |a| == 0 {
      assert a + b == b;
    } else {
      assert (a + b)[1..] == a[1..] + b;
      HolesAppend(a[1..], b);
    }
  }

  /** SQLite runs a statement only when it supplies one value per placeholder;
      otherwise it raises an error. */
  predicate Binds(s: Statement) {
    Holes(s.sql) == |s.params|
  }

  const CountHead: seq<Sql> := [Kw("SELECT COUNT(*)")]
  const DataHead: seq<Sql> := [Kw("SELECT id, timestamp, image_path, source_type, detected_objects")]
  const BaseClause: seq<Sql> := [Kw("FROM detections WHERE timestamp BETWEEN"), Hole, Kw("AND"), Hole]
  const SearchClause: seq<Sql> := [Kw("AND (image_path LIKE"), Hole, Kw("OR detected_objects LIKE"), Hole, Kw(")")]
  const TypeClause: seq<Sql> := [Kw("AND detected_objects LIKE"), Hole]
  const OrderClause: seq<Sql> := [Kw("ORDER BY timestamp DESC LIMIT"), Hole, Kw("OFFSET"), Hole]

  lemma ClauseHoles()
    ensures Holes(CountHead) == 0 && Holes(DataHead) == 0
    ensures Holes(BaseClause) == 2 && Holes(SearchClause) == 2
    ensures Holes(TypeClause) == 1 && Holes(OrderClause) == 2
  {
    assert BaseClause[1..][1..][1..][1..] == [];
    assert SearchClause[1..][1..][1..][1..][1..] == [];
    assert TypeClause[1..][1..] == [];
    assert OrderClause[1..][1..][1..][1..] == [];
  }

  const GalleryPageSize: nat := 12

  /** The filter bar: the raw search text and the class chosen in the type
      box (None for "Filter by type: All"). */
  datatype GalleryFilter = GalleryFilter(searchText: string, typeFilter: Option<string>)

  function SearchTerm(f: GalleryFilter): string {
    Strip(f.searchText)
  }

  predicate FilterActive(f: GalleryFilter) {
    SearchTerm(f) != [] || f.typeFilter.Some?
  }

  /** The search clause and its two values, when the stripped search text is non-empty. */
  function SearchPart(f: GalleryFilter): (r: (seq<Sql>, seq<Param>))
    ensures Holes(r.0) == |r.1|
    ensures r.1 == [] <==> SearchTerm(f) == []
  {
    var term := SearchTerm(f);
    ClauseHoles();
    if term != [] then (SearchClause, [Text("%" + term + "%"), Text("%" + term + "%")]) else ([], [])
  }

  /** The type clause and its value, when a class is chosen. */
  function TypePart(f: GalleryFilter): (r: (seq<Sql>, seq<Param>))
    ensures Holes(r.0) == |r.1|
    ensures r.1 == [] <==> f.typeFilter.None?
  {
    ClauseHoles();
    if f.typeFilter.Some? then (TypeClause, [Text("%\"" + f.typeFilter.value + "\"%")]) else ([], [])
  }

  /** The clauses the active filters add to the WHERE clause, and their values,
      in the order the handler appends them. */
  function FilterClauses(f: GalleryFilter): (r: (seq<Sql>, seq<Param>))
    ensures Holes(r.0) == |r.1|
    ensures r.1 == [] <==> !FilterActive(f)
  {
    var search := SearchPart(f);
    var kind := TypePart(f);
    HolesAppend(search.0, kind.0);
    (search.0 + kind.0, search.1 + kind.1)
  }

  /** Rows skipped before the requested page: `(page - 1) * 12`, unclamped. */
  function Offset(page: int): int {
    (page - 1) * GalleryPageSize
  }

  datatype QueryPair = QueryPair(count: Statement, data: Statement)

  /** The two statements as the handler builds them: both texts are fixed
      before the filter clauses are appended to the base clause, but the
      filter values are still appended to the parameters. */
  function BuildQueriesAsWritten(f: GalleryFilter, start: string, end: string, page: int): QueryPair {
    var params := [Text(start), Text(end)] + FilterClauses(f).1;
    QueryPair(Statement(CountHead + BaseClause, params),
                   Statement(DataHead + BaseClause + OrderClause,
                             params + [Number(GalleryPageSize), Number(Offset(page))]))
  }

  /** The two statements with the filter clauses in both texts. */
  function BuildQueries(f: GalleryFilter, start: string, end: string, page: int): QueryPair {
    var extra := FilterClauses(f);
    var params := [Text(start), Text(end)] + extra.1;
    QueryPair(Statement(CountHead + BaseClause + extra.0, params),
                   Statement(DataHead + BaseClause + extra.0 + OrderClause,
                             params + [Number(GalleryPageSize), Number(Offset(page))]))
  }

  /** As written, the statements bind exactly when no filter is active. */
  lemma AsWrittenBindsIffNoFilter(f: GalleryFilter, start: string, end: string, page: int)
    ensures var q := BuildQueriesAsWritten(f, start, end, page);
      && (Binds(q.count) <==> !FilterActive(f))
      && (Binds(q.data) <==> !FilterActive(f))
  {
    ClauseHoles();
    HolesAppend(CountHead, BaseClause);
    HolesAppend(DataHead, BaseClause);
    HolesAppend(DataHead + BaseClause, OrderClause);
  }

  /** With the clauses in the texts, both statements always bind, the data
      statement filters exactly like the count statement, and it carries the
      count statement's values followed by the page size and the offset. */
  lemma BuildQueriesBind(f: GalleryFilter, start: string, end: string, page: int)
    ensures var q := BuildQueries(f, start, end, page);
      && Binds(q.count) && Binds(q.data)
      && q.count.sql == CountHead + q.count.sql[|CountHead|..]
      && q.data.sql == DataHead + q.count.sql[|CountHead|..] + OrderClause
      && q.data.params == q.count.params + [Number(GalleryPageSize), Number(Offset(page))]
  {
    var extra := FilterClauses(f);
    ClauseHoles();
    HolesAppend(BaseClause, extra.0);
    HolesAppend(CountHead, BaseClause + extra.0);
    HolesAppend(DataHead, BaseClause + extra.0);
    HolesAppend(DataHead + (BaseClause + extra.0), OrderClause);
    assert CountHead + BaseClause + extra.0 == CountHead + (BaseClause + extra.0);
    assert DataHead + BaseClause + extra.0 + OrderClause == DataHead + (BaseClause + extra.0) + OrderClause;
    assert (CountHead + (BaseClause + extra.0))[|CountHead|..] == BaseClause + extra.0;
  }

  // ---------------------------------------------------------------------------
  // Gallery pagination

  /** One row the data statement returns; `objects` is None when its JSON
      does not decode. */
  datatype GalleryRow = GalleryRow(id: nat, timestamp: int, imagePath: string,
                                   objects: Option<seq<Detection>>)

  /** The tiles, the page label and the arrow buttons. */
  datatype GalleryView = GalleryView(items: seq<GalleryRow>, page: int, pages: nat,
                                     prevEnabled: bool, nextEnabled: bool)

  /** The error path: "Page 1 / 1", both arrows off, the grid left empty. */
  const ErrorView: GalleryView := GalleryView([], 1, 1, false, false)

  /** `ceil(count / 12)`, at least 1. */
  function GalleryPageCount(n: nat): (p: nat)
    ensures p >= 1
    ensures n <= p * GalleryPageSize
    ensures n > 0 ==> (p - 1) * GalleryPageSize < n
    ensures n == 0 ==> p == 1
  {
    var c := (n + GalleryPageSize - 1) / GalleryPageSize;
    if c == 0 then 1 else c
  }

  /** `LIMIT 12 OFFSET offset` over the matching rows, newest first. */
  function Window(matching: seq<GalleryRow>, offset: nat): (r: seq<GalleryRow>)
    ensures |r| <= GalleryPageSize
    ensures offset < |matching| ==> |r| > 0
    ensures forall k :: 0 <= k < |r| ==> offset + k < |matching| && r[k] == matching[offset + k]
    ensures forall k :: offset <= k < |matching| && k < offset + GalleryPageSize ==> matching[k] in r
  {
    if offset >= |matching| then []
    else
      var stop := if offset + GalleryPageSize < |matching| then offset + GalleryPageSize else |matching|;
      var r := matching[offset..stop];
      assert forall k :: offset <= k < stop ==> matching[k] == r[k - offset];
      r
  }

  /** `create_gallery_item_widget` over the fetched rows: a row whose
      detections do not decode gets no tile, the others keep their order. */
  function Tiles(rows: seq<GalleryRow>): (t: seq<GalleryRow>)
    ensures |t| <= |rows|
    ensures forall x :: x in t <==> x in rows && x.objects.Some?
    ensures (forall k :: 0 <= k < |rows| ==> rows[k].objects.Some?) ==> t == rows
  {
    if |rows| == 0 then []
    else (if rows[0].objects.Some? then [rows[0]] else []) + Tiles(rows[1..])
  }

  /** Running the two statements against the rows that satisfy their WHERE
      clause (`matching`, newest first): the error view unless both bind,
      otherwise the requested page, unclamped, with a tile per decodable row. */
  function Show(q: QueryPair, page: int, matching: seq<GalleryRow>): (v: GalleryView)
    requires page >= 1
    ensures !(Binds(q.count) && Binds(q.data)) ==> v == ErrorView
    ensures Binds(q.count) && Binds(q.data) ==>
      && v.page == page
      && v.pages == GalleryPageCount(|matching|)
      && v.items == Tiles(Window(matching, Offset(page)))
    ensures |v.items| <= GalleryPageSize
    ensures v.page >= 1
    ensures v.prevEnabled <==> v.page > 1
    ensures v.nextEnabled <==> v.page < v.pages
  {
    if !(Binds(q.count) && Binds(q.data)) then ErrorView
    else
      var pages := GalleryPageCount(|matching|);
      GalleryView(Tiles(Window(matching, Offset(page))), page, pages, page > 1, page < pages)
  }

  /** `update_history_view` as written. */
  function RefreshAsWritten(f: GalleryFilter, start: string, end: string, page: int,
                            matching: seq<GalleryRow>): GalleryView
    requires page >= 1
  {
    Show(BuildQueriesAsWritten(f, start, end, page), page, matching)
  }

  /** `update_history_view` with the filter clauses in both statements. */
  function Refresh(f: GalleryFilter, start: string, end: string, page: int,
                   matching: seq<GalleryRow>): GalleryView
    requires page >= 1
  {
    Show(BuildQueries(f, start, end, page), page, matching)
  }

  /** As written, any active filter ends on the error view, whatever the
      database holds; with no filter the handler behaves as intended. */
  lemma FilteredGalleryFailsAsWritten(f: GalleryFilter, start: string, end: string, page: int,
                                      matching: seq<GalleryRow>)
    requires page >= 1
    ensures FilterActive(f) ==> RefreshAsWritten(f, start, end, page, matching) == ErrorView
    ensures !FilterActive(f) ==>
      RefreshAsWritten(f, start, end, page, matching) == Refresh(f, start, end, page, matching)
  {
    AsWrittenBindsIffNoFilter(f, start, end, page);
    BuildQueriesBind(f, start, end, page);
  }

  /** Concretely: searching for "pet" binds four values to a count statement with two placeholders. */
  lemma SearchCountMismatch()
    ensures var q := BuildQueriesAsWritten(GalleryFilter("pet", None), "a", "b", 1);
      Holes(q.count.sql) == 2 && |q.count.params| == 4
  {
    var f := GalleryFilter("pet", None);
    assert "pet"[0] == 'p' && !IsSpace('p');
    assert SearchTerm(f) != [];
    ClauseHoles();
    HolesAppend(CountHead, BaseClause);
  }

  /** With the corrected statements the page label and the arrows follow the
      number of matching rows, and the requested page shows the decodable
      rows among the twelve from `(page - 1) * 12` onwards. */
  lemma RefreshShowsPage(f: GalleryFilter, start: string, end: string, page: int,
                         matching: seq<GalleryRow>)
    requires page >= 1
    ensures var v := Refresh(f, start, end, page, matching);
      && v.page == page
      && v.pages == GalleryPageCount(|matching|)
      && v.items == Tiles(Window(matching, Offset(page)))
      && (v.prevEnabled <==> page > 1)
      && (v.nextEnabled <==> page < GalleryPageCount(|matching|))
  {
    BuildQueriesBind(f, start, end, page);
  }

  /** Every matching row is fetched for page `position / 12 + 1`, and gets
      a tile there exactly when its detections decode. */
  lemma GalleryPageHoldsRow(f: GalleryFilter, start: string, end: string,
                            matching: seq<GalleryRow>, k: nat)
    requires k < |matching|
    ensures var page := k / GalleryPageSize + 1;
      && page <= GalleryPageCount(|matching|)
      && matching[k] in Window(matching, Offset(page))
      && (matching[k] in Refresh(f, start, end, page, matching).items <==> matching[k].objects.Some?)
  {
    var page := k / GalleryPageSize + 1;
    RefreshShowsPage(f, start, end, page, matching);
    assert Offset(page) <= k < Offset(page) + GalleryPageSize;
  }

  /** `history_prev_page`: reload the previous page when there is one. */
  function PrevPage(v: GalleryView, f: GalleryFilter, start: string, end: string,
                    matching: seq<GalleryRow>): (r: GalleryView)
    requires v.page >= 1
    ensures r.page >= 1
    ensures v.page <= 1 ==> r == v
  {
    if v.page > 1 then Refresh(f, start, end, v.page - 1, matching) else v
  }

  /** `history_next_page`: reload the next page when the label says there is one. */
  function NextPage(v: GalleryView, f: GalleryFilter, start: string, end: string,
                    matching: seq<GalleryRow>): (r: GalleryView)
    requires v.page >= 1
    ensures r.page >= 1
    ensures v.page >= v.pages ==> r == v
  {
    if v.page < v.pages then Refresh(f, start, end, v.page + 1, matching) else v
  }

  /** While the matching rows stay the same, the arrows never lead to an
      empty page: from a page the handler showed, the next and previous pages
      are within range and fetch rows. */
  lemma ArrowsReachFilledPages(f: GalleryFilter, start: string, end: string, page: int,
                               matching: seq<GalleryRow>)
    requires page >= 1
    ensures var v := Refresh(f, start, end, page, matching);
      && (v.page < v.pages ==> var n := NextPage(v, f, start, end, matching);
            n.page == page + 1 && n.page <= n.pages && Window(matching, Offset(n.page)) != [])
      && (1 < v.page <= v.pages ==> var p := PrevPage(v, f, start, end, matching);
            p.page == page - 1 && Window(matching, Offset(p.page)) != [])
  {
    var v := Refresh(f, start, end, page, matching);
    RefreshShowsPage(f, start, end, page, matching);
    if v.page < v.pages {
      RefreshShowsPage(f, start, end, page + 1, matching);
      assert Offset(page + 1) < |matching|;
    }
    if 1 < v.page <= v.pages {
      RefreshShowsPage(f, start, end, page - 1, matching);
      assert Offset(page - 1) < |matching|;
    }
  }
}

=== FILE: detections.dfy ===
/** One recognised object within one frame, and the confidence filter that turns
    the stored (floor-confidence) detections of a record into the detections that
    are displayed. Source: rec.py and Scripts/t-testing-4.1.py, the detection
    dictionaries `{"class", "conf", "box"[, "track_id"]}`. */
module Detections {
  import opened Wrappers
  import opened Text

  /** Corner coordinates `[x1, y1, x2, y2]` in image pixels. */
  datatype Box = Box(x1: int, y1: int, x2: int, y2: int)

  /** A detection as the application stores it: class name, confidence,
      box and, for tracked webcam frames only, the tracker's identity. */
  datatype Detection = Detection(cls: string, conf: real, box: Box, trackId: Option<int>)

  /** One box as the inference adapter reports it: class id, confidence, box. */
  datatype RawDetection = RawDetection(classId: int, conf: real, box: Box)

  /** Confidence floor used when a file image is inferred for storage, so that
      the stored record can be re-filtered later at any display threshold. */
  const FloorConfidence: real := 0.01

  /** `model.names.get(cls_id, f"Class_{cls_id}")`, with the names table as the
      list of class names indexed by class id. */
  function ClassName(names: seq<string>, classId: int): (r: string)
    ensures 0 <= classId < |names| ==> r == names[classId]
    ensures !(0 <= classId < |names|) ==> IsPrefix("Class_", r) && |r| > 6
  {
    if 0 <= classId < |names| then names[classId] else "Class_" + IntToString(classId)
  }

  /** The detection list built from one inference result, in the adapter's order. */
  function FromRaw(raws: seq<RawDetection>, names: seq<string>): (r: seq<Detection>)
    ensures |r| == |raws|
    ensures forall i :: 0 <= i < |raws| ==>
      r[i] == Detection(ClassName(names, raws[i].classId), raws[i].conf, raws[i].box, None)
  {
    if |raws| == 0 then []
    else [Detection(ClassName(names, raws[0].classId), raws[0].conf, raws[0].box, None)]
         + FromRaw(raws[1..], names)
  }

  /** `a` can be obtained from `b` by deleting elements (order kept). */
  predicate IsSubsequence<T(==)>(a: seq<T>, b: seq<T>)
    decreases |b|
  {
    |a| == 0 || (|b| > 0 && if a[0] == b[0] then IsSubsequence(a[1..], b[1..]) else IsSubsequence(a, b[1..]))
  }

  /** The display filter `[d for d in dets if d["conf"] >= threshold]`. */
  function FilterByConfidence(dets: seq<Detection>, threshold: real): (r: seq<Detection>)
    ensures |r| <= |dets|
    ensures forall d :: d in r ==> d in dets && d.conf >= threshold
    ensures forall d :: d in dets && d.conf >= threshold ==> d in r
  {
    if |dets| == 0 then []
    else if dets[0].conf >= threshold then [dets[0]] + FilterByConfidence(dets[1..], threshold)
    else FilterByConfidence(dets[1..], threshold)
  }

  /** The displayed list keeps the stored order: it is a subsequence of the stored list. */
  lemma {:induction false} FilterIsSubsequence(dets: seq<Detection>, threshold: real)
    ensures IsSubsequence(FilterByConfidence(dets, threshold), dets)
  {
    if |dets| > 0 {
      FilterIsSubsequence(dets[1..], threshold);
      var rest := FilterByConfidence(dets[1..], threshold);
      if dets[0].conf < threshold && |rest| > 0 {
        assert rest[0] in rest;
        assert rest[0] != dets[0];
      }
    }
  }

  /** Filtering at `lo` and then at `hi >= lo` is filtering at `hi`: a list
      stored at the floor confidence can be re-filtered at any later threshold
      without running inference again. */
  lemma {:induction false} FilterTwice(dets: seq<Detection>, lo: real, hi: real)
    requires lo <= hi
    ensures FilterByConfidence(FilterByConfidence(dets, lo), hi) == FilterByConfidence(dets, hi)
  {
    if |dets| > 0 {
      FilterTwice(dets[1..], lo, hi);
      if dets[0].conf >= lo {
        assert FilterByConfidence(dets, lo) == [dets[0]] + FilterByConfidence(dets[1..], lo);
        assert FilterByConfidence(dets, lo)[1..] == FilterByConfidence(dets[1..], lo);
      }
    }
  }

  /** For thresholds `t1 <= t2`, the list displayed at `t2` is a subsequence of
      the list displayed at `t1`. */
  lemma FilterMonotone(dets: seq<Detection>, t1: real, t2: real)
    requires t1 <= t2
    ensures IsSubsequence(FilterByConfidence(dets, t2), FilterByConfidence(dets, t1))
  {
    FilterTwice(dets, t1, t2);
    FilterIsSubsequence(FilterByConfidence(dets, t1), t2);
  }

  /** Center form `[xc, yc, w, h]`, the box format the tracker consumes. */
  datatype CenterBox = CenterBox(xc: real, yc: real, w: real, h: real)

  /** Corner form to center form, as done for every box before the tracker update. */
  function ToCenterForm(b: Box): (c: CenterBox)
    ensures b.x1 < b.x2 ==> c.w > 0.0
    ensures b.y1 < b.y2 ==> c.h > 0.0
    ensures c.xc - c.w / 2.0 == b.x1 as real && c.xc + c.w / 2.0 == b.x2 as real
    ensures c.yc - c.h / 2.0 == b.y1 as real && c.yc + c.h / 2.0 == b.y2 as real
  {
    CenterBox((b.x1 + b.x2) as real / 2.0, (b.y1 + b.y2) as real / 2.0,
              (b.x2 - b.x1) as real, (b.y2 - b.y1) as real)
  }

  /** One row of what the tracker update receives: the center-form box, the
      confidence and the class id of a model detection. */
  datatype TrackerInput = TrackerInput(box: CenterBox, conf: real, classId: int)

  /** The tracker's input for a frame: every detection, in order, its box in center form. */
  function TrackerInputs(raws: seq<RawDetection>): (r: seq<TrackerInput>)
    ensures |r| == |raws|
    ensures forall i :: 0 <= i < |raws| ==>
      r[i] == TrackerInput(ToCenterForm(raws[i].box), raws[i].conf, raws[i].classId)
  {
    if |raws| == 0 then []
    else [TrackerInput(ToCenterForm(raws[0].box), raws[0].conf, raws[0].classId)] + TrackerInputs(raws[1..])
  }
}

=== FILE: history.dfy ===
/** The in-memory detection history of rec.py: file images are stored once per
    absolute path with their floor-confidence detections, tracked webcam frames
    add a record per batch of newly bound identities, and the history page
    filters, sorts newest first and paginates the records (rec.py:1821-1878,
    2302-2333, 2039-2056, 2664-2734). */
module HistoryStore {
  import opened Wrappers
  import opened Text
  import opened Detections

  /** `HISTORY_ITEMS_PER_PAGE` (rec.py:48). */
  const ItemsPerPage: nat := 16

  datatype SourceKind = File | WebcamTracked

  /** One history entry. Timestamps are clock readings, compared only for order. */
  datatype Record = Record(id: nat, timestamp: int, imagePath: Option<string>, source: SourceKind,
                           procTimeMs: real, confThreshold: real, iouThreshold: real,
                           detections: seq<Detection>)

  /** Record ids are `len(history) + 1` at append time, so the record at
      position `i` has id `i + 1` as long as history is only appended to or
      emptied. */
  predicate WellNumbered(h: seq<Record>) {
    forall i :: 0 <= i < |h| ==> h[i].id == i + 1
  }

  /** No two records share an image path. */
  predicate UniquePaths(h: seq<Record>) {
    forall i, j :: 0 <= i < j < |h| && h[i].imagePath.Some? ==> h[i].imagePath != h[j].imagePath
  }

  /** The first record at or after `k` stored for `path`. */
  function FindPathFrom(h: seq<Record>, path: string, k: nat): (r: Option<nat>)
    ensures r.Some? ==> k <= r.value < |h| && h[r.value].imagePath == Some(path)
    ensures r.Some? ==> forall j :: k <= j < r.value ==> h[j].imagePath != Some(path)
    ensures r.None? ==> forall j :: k <= j < |h| ==> h[j].imagePath != Some(path)
    decreases |h| - k
  {
    if k >= |h| then None
    else if h[k].imagePath == Some(path) then Some(k)
    else FindPathFrom(h, path, k + 1)
  }

  /** `next((r for r in history if r['image_path'] == path), None)`. */
  function FindPath(h: seq<Record>, path: string): (r: Option<nat>)
    ensures r.Some? ==> r.value < |h| && h[r.value].imagePath == Some(path)
    ensures r.Some? ==> forall j :: 0 <= j < r.value ==> h[j].imagePath != Some(path)
    ensures r.None? <==> forall j :: 0 <= j < |h| ==> h[j].imagePath != Some(path)
  {
    FindPathFrom(h, path, 0)
  }

  /** What one inference call hands back: the raw boxes and the time it took. */
  datatype Inference = Inference(raws: seq<RawDetection>, timeMs: real)

  /** History after processing a file, with the detections and processing time
      the display is built from. */
  datatype FileOutcome = FileOutcome(history: seq<Record>, stored: seq<Detection>, timeMs: real)

  /** The storage step of running the model on a readable file image: a path
      already in history is served from its record; otherwise the model runs
      at the floor confidence and one record is appended. `infer` stands for
      the model applied to this image, given the confidence and IoU it is
      called with. */
  function StoreFile(h: seq<Record>, path: string, now: int, conf: real, iou: real,
                     names: seq<string>, infer: (real, real) -> Inference): (r: FileOutcome)
    ensures FindPath(h, path).Some? ==>
      && r.history == h
      && r.stored == h[FindPath(h, path).value].detections
      && r.timeMs == h[FindPath(h, path).value].procTimeMs
    ensures FindPath(h, path).None? ==>
      && |r.history| == |h| + 1
      && r.history[..|h|] == h
      && r.history[|h|] == Record(|h| + 1, now, Some(path), File, r.timeMs, conf, iou, r.stored)
      && r.stored == FromRaw(infer(FloorConfidence, iou).raws, names)
    ensures WellNumbered(h) ==> WellNumbered(r.history)
    ensures UniquePaths(h) ==> UniquePaths(r.history)
    ensures FindPath(r.history, path).Some?
  {
    match FindPath(h, path)
    case Some(i) => FileOutcome(h, h[i].detections, h[i].procTimeMs)
    case None =>
      var inf := infer(FloorConfidence, iou);
      var dets := FromRaw(inf.raws, names);
      var h' := h + [Record(|h| + 1, now, Some(path), File, inf.timeMs, conf, iou, dets)];
      assert h'[|h|].imagePath == Some(path);
      FileOutcome(h', dets, inf.timeMs)
  }

  /** Processing the same file twice: the second time changes nothing and
      serves exactly what the first time stored, whatever the inference
      oracle would now answer and whatever the thresholds now are. */
  lemma StoreFileTwice(h: seq<Record>, path: string, now1: int, now2: int, conf1: real, conf2: real,
                       iou1: real, iou2: real, names: seq<string>,
                       infer1: (real, real) -> Inference, infer2: (real, real) -> Inference)
    ensures var first := StoreFile(h, path, now1, conf1, iou1, names, infer1);
      var second := StoreFile(first.history, path, now2, conf2, iou2, names, infer2);
      && second.history == first.history
      && second.stored == first.stored
      && second.timeMs == first.timeMs
  {
    var first := StoreFile(h, path, now1, conf1, iou1, names, infer1);
    if FindPath(h, path).None? {
      assert FindPath(first.history, path).value == |h|;
    } else {
      var i := FindPath(h, path).value;
      assert first.history == h;
    }
  }

  /** The detections stored for a file do not depend on the confidence
      threshold in force when it was first processed: they come from the
      floor-confidence run, so the display can be re-filtered at any later
      threshold. */
  lemma StoredIndependentOfThreshold(h: seq<Record>, path: string, now: int, conf1: real, conf2: real,
                                     iou: real, names: seq<string>, infer: (real, real) -> Inference)
    ensures StoreFile(h, path, now, conf1, iou, names, infer).stored
         == StoreFile(h, path, now, conf2, iou, names, infer).stored
  {
  }

  /** The record appended by a tracked webcam frame, if any identity was newly bound. */
  function StoreTracked(h: seq<Record>, now: int, timeMs: real, conf: real, iou: real,
                        newlyBound: seq<Detection>): (r: seq<Record>)
    ensures newlyBound == [] ==> r == h
    ensures newlyBound != [] ==>
      r == h + [Record(|h| + 1, now, None, WebcamTracked, timeMs, conf, iou, newlyBound)]
    ensures WellNumbered(h) ==> WellNumbered(r)
    ensures UniquePaths(h) ==> UniquePaths(r)
  {
    if newlyBound == [] then h
    else h + [Record(|h| + 1, now, None, WebcamTracked, timeMs, conf, iou, newlyBound)]
  }

  // ---------------------------------------------------------------------------
  // The history page

  /** The type selector: "Filter by type: All" or one class name. */
  datatype TypeFilter = AllTypes | OfType(name: string)

  predicate ClassContains(d: Detection, pattern: string) {
    Contains(Lower(d.cls), pattern)
  }

  predicate PassesType(r: Record, f: TypeFilter) {
    match f
    case AllTypes => true
    case OfType(name) => exists k :: 0 <= k < |r.detections| && ClassContains(r.detections[k], Lower(name))
  }

  /** `term` is the search box text after `strip().lower()`. */
  predicate PassesSearch(r: Record, term: string) {
    || term == []
    || (r.imagePath.Some? && Contains(Lower(r.imagePath.value), term))
    || exists k :: 0 <= k < |r.detections| && ClassContains(r.detections[k], term)
  }

  predicate Passes(r: Record, f: TypeFilter, term: string) {
    PassesType(r, f) && PassesSearch(r, term)
  }

  /** The records of `h` that pass both filters, in history order. */
  function Select(h: seq<Record>, f: TypeFilter, term: string): (r: seq<Record>)
    ensures |r| <= |h|
    ensures forall x :: x in r <==> x in h && Passes(x, f, term)
    ensures multiset(r) <= multiset(h)
  {
    if |h| == 0 then []
    else
      assert h == [h[0]] + h[1..];
      if Passes(h[0], f, term) then [h[0]] + Select(h[1..], f, term)
      else Select(h[1..], f, term)
  }

  /** Timestamps never increase along `s`. */
  predicate NewestFirst(s: seq<Record>) {
    forall i :: 0 <= i < |s| - 1 ==> s[i].timestamp >= s[i + 1].timestamp
  }

  /** Inserting `x` in front of every record that is not newer than it. */
  function InsertNewest(x: Record, s: seq<Record>): (r: seq<Record>)
    ensures multiset(r) == multiset(s) + multiset{x}
    ensures |r| == |s| + 1
    ensures r[0] == x || (|s| > 0 && r[0] == s[0])
    ensures NewestFirst(s) ==> NewestFirst(r)
  {
    if |s| == 0 then [x]
    else if x.timestamp >= s[0].timestamp then [x] + s
    else
      var rest := InsertNewest(x, s[1..]);
      assert s == [s[0]] + s[1..];
      [s[0]] + rest
  }

  /** `sort(key=timestamp, reverse=True)`: a stable sort, newest first. */
  function SortNewestFirst(s: seq<Record>): (r: seq<Record>)
    ensures multiset(r) == multiset(s)
    ensures |r| == |s|
    ensures NewestFirst(r)
  {
    if |s| == 0 then []
    else
      assert s == [s[0]] + s[1..];
      InsertNewest(s[0], SortNewestFirst(s[1..]))
  }

  /** Ids grow along `s`. */
  predicate IdsIncreasing(s: seq<Record>) {
    forall i, j :: 0 <= i < j < |s| ==> s[i].id < s[j].id
  }

  /** `a` is shown before `b`: it is newer, or as new and recorded earlier. */
  predicate ShownBefore(a: Record, b: Record) {
    a.timestamp > b.timestamp || (a.timestamp == b.timestamp && a.id < b.id)
  }

  predicate ShownInOrder(s: seq<Record>) {
    forall i :: 0 <= i < |s| - 1 ==> ShownBefore(s[i], s[i + 1])
  }

  lemma {:induction false} InsertKeepsOrder(x: Record, s: seq<Record>)
    requires ShownInOrder(s)
    requires forall y :: y in s ==> x.id < y.id
    ensures ShownInOrder(InsertNewest(x, s))
  {
    if |s| > 0 && x.timestamp < s[0].timestamp {
      forall y | y in s[1..] ensures x.id < y.id {
        assert y in s;
      }
      InsertKeepsOrder(x, s[1..]);
    }
  }

  /** The sort is stable: among records with equal timestamps, the one recorded
      earlier (smaller id) is shown first, provided ids grow along the input. */
  lemma {:induction false} SortIsStable(s: seq<Record>)
    requires IdsIncreasing(s)
    ensures ShownInOrder(SortNewestFirst(s))
  {
    if |s| > 0 {
      SortIsStable(s[1..]);
      var rest := SortNewestFirst(s[1..]);
      forall y | y in rest ensures s[0].id < y.id {
        assert y in multiset(rest);
        assert y in multiset(s[1..]);
        var j :| 0 <= j < |s[1..]| && s[1..][j] == y;
        assert s[j + 1] == y;
      }
      InsertKeepsOrder(s[0], rest);
    }
  }

  lemma {:induction false} SelectKeepsIdOrder(h: seq<Record>, f: TypeFilter, term: string)
    requires IdsIncreasing(h)
    ensures IdsIncreasing(Select(h, f, term))
  {
    if |h| > 0 {
      assert IdsIncreasing(h[1..]);
      SelectKeepsIdOrder(h[1..], f, term);
      var rest := Select(h[1..], f, term);
      if Passes(h[0], f, term) {
        forall j | 0 <= j < |rest| ensures h[0].id < rest[j].id {
          assert rest[j] in h[1..];
        }
      }
    }
  }

  /** `max(1, ceil(n / 16))`. */
  function PageCount(n: nat): (p: nat)
    ensures p >= 1
    ensures n <= p * ItemsPerPage
    ensures n > 0 ==> (p - 1) * ItemsPerPage < n
    ensures n == 0 ==> p == 1
  {
    var c := (n + ItemsPerPage - 1) / ItemsPerPage;
    if c == 0 then 1 else c
  }

  /** `max(1, min(page, pages))`. */
  function ClampPage(page: int, pages: nat): (r: nat)
    requires pages >= 1
    ensures 1 <= r <= pages
    ensures 1 <= page <= pages ==> r == page
    ensures page < 1 ==> r == 1
    ensures page > pages ==> r == pages
  {
    if page < 1 then 1 else if page > pages then pages else page
  }

  /** Records on page `p` of `s`: Python's slice `s[(p-1)*16 : (p-1)*16 + 16]`. */
  function PageSlice(s: seq<Record>, p: nat): (r: seq<Record>)
    requires p >= 1
    ensures |r| <= ItemsPerPage
    ensures forall k :: 0 <= k < |r| ==> (p - 1) * ItemsPerPage + k < |s| && r[k] == s[(p - 1) * ItemsPerPage + k]
    ensures (p - 1) * ItemsPerPage + ItemsPerPage <= |s| ==> |r| == ItemsPerPage
    ensures (p - 1) * ItemsPerPage < |s| ==> |r| > 0
    ensures forall x :: x in r ==> x in s
    ensures NewestFirst(s) ==> NewestFirst(r)
  {
    var start := (p - 1) * ItemsPerPage;
    if start >= |s| then []
    else if start + ItemsPerPage <= |s| then s[start..start + ItemsPerPage]
    else s[start..]
  }

  /** Why a page is empty, shown in place of the gallery. */
  datatype EmptyNote = NotEmpty | NoMatches | NoHistory

  /** The history page as displayed. */
  datatype HistoryView = HistoryView(items: seq<Record>, page: nat, pages: nat,
                                     prevEnabled: bool, nextEnabled: bool, note: EmptyNote)

  /** The history page for type filter `f`, search box text `searchText` and
      requested page `page`. */
  function Query(h: seq<Record>, f: TypeFilter, searchText: string, page: int): (v: HistoryView)
    ensures v.pages == PageCount(|Select(h, f, Lower(Strip(searchText)))|)
    ensures 1 <= v.page <= v.pages
    ensures 1 <= page <= v.pages ==> v.page == page
    ensures |v.items| <= ItemsPerPage
    ensures forall x :: x in v.items ==> x in h && Passes(x, f, Lower(Strip(searchText)))
    ensures NewestFirst(v.items)
    ensures v.prevEnabled <==> v.page > 1
    ensures v.nextEnabled <==> v.page < v.pages
    ensures v.items == [] <==> v.note != NotEmpty
    ensures v.note == NoHistory <==> h == []
  {
    var term := Lower(Strip(searchText));
    var sorted := SortNewestFirst(Select(h, f, term));
    var pages := PageCount(|sorted|);
    var p := ClampPage(page, pages);
    var items := PageSlice(sorted, p);
    assert forall x :: x in sorted ==> x in multiset(Select(h, f, term));
    HistoryView(items, p, pages, p > 1, p < pages,
                if items != [] then NotEmpty else if h != [] then NoMatches else NoHistory)
  }

  /** Every record that passes the filters is shown on exactly the page its
      position in the newest-first order puts it on: together the pages show
      the whole selection. */
  lemma QueryShowsEveryMatch(h: seq<Record>, f: TypeFilter, searchText: string, x: Record)
    requires x in h && Passes(x, f, Lower(Strip(searchText)))
    ensures exists p :: 1 <= p <= Query(h, f, searchText, 1).pages && x in Query(h, f, searchText, p).items
  {
    var sorted := SortNewestFirst(Select(h, f, Lower(Strip(searchText))));
    assert x in multiset(sorted);
    var k :| 0 <= k < |sorted| && sorted[k] == x;
    var p := k / ItemsPerPage + 1;
    PageHoldsPosition(sorted, k);
    assert Query(h, f, searchText, p).page == p;
  }

  /** Position `k` of a list is on page `k / 16 + 1`. */
  lemma PageHoldsPosition(s: seq<Record>, k: nat)
    requires k < |s|
    ensures k / ItemsPerPage + 1 <= PageCount(|s|)
    ensures s[k] in PageSlice(s, k / ItemsPerPage + 1)
  {
    var p := k / ItemsPerPage + 1;
    var items := PageSlice(s, p);
    assert (p - 1) * ItemsPerPage + k % ItemsPerPage == k;
    assert items[k % ItemsPerPage] == s[k];
  }

  /** Records of a well-numbered history are shown newest first, and records
      with equal timestamps in the order they were recorded. */
  lemma QueryShownInOrder(h: seq<Record>, f: TypeFilter, searchText: string, page: int)
    requires WellNumbered(h)
    ensures ShownInOrder(Query(h, f, searchText, page).items)
  {
    var term := Lower(Strip(searchText));
    var selected := Select(h, f, term);
    assert IdsIncreasing(h);
    SelectKeepsIdOrder(h, f, term);
    SortIsStable(selected);
    var sorted := SortNewestFirst(selected);
    var v := Query(h, f, searchText, page);
    var items := PageSlice(sorted, v.page);
    forall i | 0 <= i < |items| - 1 ensures ShownBefore(items[i], items[i + 1]) {
      assert items[i] == sorted[(v.page - 1) * ItemsPerPage + i];
    }
  }

  /** The confirmed "clear history" action empties history; declining keeps it. */
  function ClearHistory(h: seq<Record>, confirmed: bool): (r: seq<Record>)
    ensures confirmed ==> r == [] && WellNumbered(r)
    ensures !confirmed ==> r == h
  {
    if confirmed then [] else h
  }
}

=== FILE: identity.dfy ===
/** Identity memory of the tracking webcam loop (rec.py:2287-2333): every
    track identity keeps the class label it was given when first seen, for as
    long as the tracker keeps reporting it; identities the tracker no longer
    reports are dropped; newly bound identities are what gets stored in history. */
module IdentityMemory {
  import opened Wrappers
  import opened Detections

  /** One tracker output row `[x1, y1, x2, y2, track_id, class_id, conf]`
      after the integer conversions of the source. */
  datatype Track = Track(box: Box, trackId: int, classId: int, conf: real)

  function TrackIds(tracks: seq<Track>): set<int> {
    set t | t in tracks :: t.trackId
  }

  lemma TrackIdsCons(tracks: seq<Track>)
    requires |tracks| > 0
    ensures TrackIds(tracks) == {tracks[0].trackId} + TrackIds(tracks[1..])
  {
    assert forall x :: x in tracks <==> x == tracks[0] || x in tracks[1..];
  }

  /** The pruning step: bindings whose identity is absent from this frame go. */
  function Prune(identities: map<int, string>, tracks: seq<Track>): (m: map<int, string>)
    ensures m.Keys == identities.Keys * TrackIds(tracks)
    ensures forall tid :: tid in m ==> m[tid] == identities[tid]
  {
    map tid | tid in identities && tid in TrackIds(tracks) :: identities[tid]
  }

  /** Outcome of one tick: the new identity map, the detections displayed (each
      carrying its track identity), and the detections of newly bound identities. */
  datatype TickResult = TickResult(identities: map<int, string>, display: seq<Detection>,
                                   newlyBound: seq<Detection>)

  /** The loop over this frame's tracks, starting from the bindings `m`. */
  function Bind(m: map<int, string>, tracks: seq<Track>, names: seq<string>): (r: TickResult)
    ensures |r.display| == |tracks|
    ensures r.identities.Keys == m.Keys + TrackIds(tracks)
    decreases |tracks|
  {
    if |tracks| == 0 then TickResult(m, [], [])
    else
      var t := tracks[0];
      assert TrackIds(tracks) == {t.trackId} + TrackIds(tracks[1..]) by {
        assert forall x :: x in tracks <==> x == t || x in tracks[1..];
      }
      if t.trackId in m then
        var rest := Bind(m, tracks[1..], names);
        TickResult(rest.identities,
                   [Detection(m[t.trackId], t.conf, t.box, Some(t.trackId))] + rest.display,
                   rest.newlyBound)
      else
        var name := ClassName(names, t.classId);
        var rest := Bind(m[t.trackId := name], tracks[1..], names);
        TickResult(rest.identities,
                   [Detection(name, t.conf, t.box, Some(t.trackId))] + rest.display,
                   [Detection(name, t.conf, t.box, None)] + rest.newlyBound)
  }

  /** Track `i` is the first one in this frame with an identity not bound in `m`. */
  predicate FirstSighting(m: map<int, string>, tracks: seq<Track>, i: int) {
    && 0 <= i < |tracks|
    && tracks[i].trackId !in m
    && forall j :: 0 <= j < i ==> tracks[j].trackId != tracks[i].trackId
  }

  /** One webcam tick of the identity memory: prune, then bind. */
  function Tick(identities: map<int, string>, tracks: seq<Track>, names: seq<string>): TickResult {
    Bind(Prune(identities, tracks), tracks, names)
  }

  /** Bindings already present are never changed by the loop; every displayed
      detection shows its identity's binding and carries its identity. */
  lemma BindKeepsBindings(m: map<int, string>, tracks: seq<Track>, names: seq<string>)
    ensures var r := Bind(m, tracks, names);
      && (forall tid :: tid in m ==> r.identities[tid] == m[tid])
      && (forall i :: 0 <= i < |tracks| ==>
            && r.display[i].trackId == Some(tracks[i].trackId)
            && r.display[i].box == tracks[i].box
            && r.display[i].conf == tracks[i].conf
            && r.display[i].cls == r.identities[tracks[i].trackId])
  {
    BindKeepsOld(m, tracks, names);
    BindDisplay(m, tracks, names);
  }

  /** The binding the loop continues with after the first track. */
  function AfterFirst(m: map<int, string>, t: Track, names: seq<string>): (m': map<int, string>)
    ensures t.trackId in m'
    ensures forall tid :: tid in m ==> tid in m' && m'[tid] == m[tid]
  {
    if t.trackId in m then m else m[t.trackId := ClassName(names, t.classId)]
  }

  lemma {:induction false} BindKeepsOld(m: map<int, string>, tracks: seq<Track>, names: seq<string>)
    ensures forall tid :: tid in m ==> Bind(m, tracks, names).identities[tid] == m[tid]
    decreases |tracks|
  {
    if |tracks| > 0 {
      var m' := AfterFirst(m, tracks[0], names);
      BindKeepsOld(m', tracks[1..], names);
      assert Bind(m, tracks, names).identities == Bind(m', tracks[1..], names).identities;
    }
  }

  lemma {:induction false} BindDisplay(m: map<int, string>, tracks: seq<Track>, names: seq<string>)
    ensures var r := Bind(m, tracks, names);
      forall i :: 0 <= i < |tracks| ==>
        && r.display[i].trackId == Some(tracks[i].trackId)
        && r.display[i].box == tracks[i].box
        && r.display[i].conf == tracks[i].conf
        && r.display[i].cls == r.identities[tracks[i].trackId]
    decreases |tracks|
  {
    if |tracks| > 0 {
      var t := tracks[0];
      var m' := AfterFirst(m, t, names);
      BindDisplay(m', tracks[1..], names);
      BindKeepsOld(m', tracks[1..], names);
      var r := Bind(m, tracks, names);
      var rest := Bind(m', tracks[1..], names);
      assert r.identities == rest.identities;
      assert r.display == [Detection(m'[t.trackId], t.conf, t.box, Some(t.trackId))] + rest.display;
      forall i | 0 <= i < |tracks|
        ensures && r.display[i].trackId == Some(tracks[i].trackId)
                && r.display[i].box == tracks[i].box
                && r.display[i].conf == tracks[i].conf
                && r.display[i].cls == r.identities[tracks[i].trackId]
      {
        if i > 0 {
          assert r.display[i] == rest.display[i - 1];
          assert tracks[i] == tracks[1..][i - 1];
        }
      }
    }
  }

  /** The loop records something exactly when some track's identity is unknown. */
  lemma {:induction false} BindRecordsNew(m: map<int, string>, tracks: seq<Track>, names: seq<string>)
    ensures Bind(m, tracks, names).newlyBound != [] <==> exists i :: 0 <= i < |tracks| && tracks[i].trackId !in m
    decreases |tracks|
  {
    if |tracks| > 0 {
      var t := tracks[0];
      if t.trackId in m {
        BindRecordsNew(m, tracks[1..], names);
        if exists i :: 0 <= i < |tracks| && tracks[i].trackId !in m {
          var i :| 0 <= i < |tracks| && tracks[i].trackId !in m;
          assert tracks[1..][i - 1] == tracks[i];
        }
      }
    }
  }

  /** The newly-bound list holds one detection, without track identity, per
      distinct identity that was not bound before the loop. */
  lemma {:induction false} BindNewlyBoundCount(m: map<int, string>, tracks: seq<Track>, names: seq<string>)
    ensures |Bind(m, tracks, names).newlyBound| == |TrackIds(tracks) - m.Keys|
    decreases |tracks|
  {
    if |tracks| == 0 {
      assert TrackIds(tracks) == {};
    } else if tracks[0].trackId in m {
      BindNewlyBoundCount(m, tracks[1..], names);
      CountStepKnown(m, tracks, names);
    } else {
      BindNewlyBoundCount(m[tracks[0].trackId := ClassName(names, tracks[0].classId)], tracks[1..], names);
      CountStepNew(m, tracks, names);
    }
  }

  lemma CountStepKnown(m: map<int, string>, tracks: seq<Track>, names: seq<string>)
    requires |tracks| > 0 && tracks[0].trackId in m
    requires |Bind(m, tracks[1..], names).newlyBound| == |TrackIds(tracks[1..]) - m.Keys|
    ensures |Bind(m, tracks, names).newlyBound| == |TrackIds(tracks) - m.Keys|
  {
    TrackIdsCons(tracks);
    KnownIdAddsNothing(tracks[0].trackId, TrackIds(tracks[1..]), m.Keys);
  }

  lemma CountStepNew(m: map<int, string>, tracks: seq<Track>, names: seq<string>)
    requires |tracks| > 0 && tracks[0].trackId !in m
    requires var m' := m[tracks[0].trackId := ClassName(names, tracks[0].classId)];
      |Bind(m', tracks[1..], names).newlyBound| == |TrackIds(tracks[1..]) - m'.Keys|
    ensures |Bind(m, tracks, names).newlyBound| == |TrackIds(tracks) - m.Keys|
  {
    var x := tracks[0].trackId;
    var m' := m[x := ClassName(names, tracks[0].classId)];
    NewIdBindsOneMore(m, tracks, names);
    TrackIdsCons(tracks);
    NewIdCount(x, TrackIds(tracks[1..]), m.Keys, m'.Keys,
               |Bind(m, tracks, names).newlyBound|, |Bind(m', tracks[1..], names).newlyBound|);
  }

  lemma NewIdCount(x: int, later: set<int>, known: set<int>, known': set<int>, n: int, n': int)
    requires x !in known && known' == known + {x}
    requires n == 1 + n' && n' == |later - known'|
    ensures n == |({x} + later) - known|
  {
    NewIdAddsOne(x, later, known);
  }

  /** A track with an unbound identity adds exactly one newly bound detection. */
  lemma NewIdBindsOneMore(m: map<int, string>, tracks: seq<Track>, names: seq<string>)
    requires |tracks| > 0 && tracks[0].trackId !in m
    ensures |Bind(m, tracks, names).newlyBound|
         == 1 + |Bind(m[tracks[0].trackId := ClassName(names, tracks[0].classId)], tracks[1..], names).newlyBound|
  {
  }

  lemma KnownIdAddsNothing(x: int, a: set<int>, known: set<int>)
    requires x in known
    ensures ({x} + a) - known == a - known
  {
  }

  lemma NewIdAddsOne(x: int, a: set<int>, known: set<int>)
    requires x !in known
    ensures |({x} + a) - known| == 1 + |a - (known + {x})|
  {
    assert ({x} + a) - known == {x} + (a - (known + {x}));
  }

  /** After a tick the identity map's keys are exactly this frame's track
      identities, and an identity that was bound before and is still tracked
      keeps its label, whatever class the tracker reports now. */
  lemma TickBindings(identities: map<int, string>, tracks: seq<Track>, names: seq<string>)
    ensures var r := Tick(identities, tracks, names);
      && r.identities.Keys == TrackIds(tracks)
      && forall tid :: tid in identities && tid in TrackIds(tracks) ==> r.identities[tid] == identities[tid]
  {
    BindKeepsBindings(Prune(identities, tracks), tracks, names);
  }

  /** Every displayed detection carries its track identity and that
      identity's bound label; the first track of a new identity shows the
      class reported with it. */
  lemma TickDisplay(identities: map<int, string>, tracks: seq<Track>, names: seq<string>)
    ensures var r := Tick(identities, tracks, names);
      && |r.display| == |tracks|
      && (forall i :: 0 <= i < |tracks| ==>
            && r.display[i].trackId == Some(tracks[i].trackId)
            && r.display[i].cls == r.identities[tracks[i].trackId])
      && forall i :: FirstSighting(identities, tracks, i) ==> r.display[i].cls == ClassName(names, tracks[i].classId)
  {
    var m := Prune(identities, tracks);
    BindKeepsBindings(m, tracks, names);
    BindFirstSighting(m, tracks, names);
    forall i | FirstSighting(identities, tracks, i)
      ensures FirstSighting(m, tracks, i)
    {
    }
  }

  /** A history record is due exactly when some identity in the frame is new,
      and it holds one detection per newly bound identity. */
  lemma TickRecord(identities: map<int, string>, tracks: seq<Track>, names: seq<string>)
    ensures var r := Tick(identities, tracks, names);
      && (r.newlyBound != [] <==> exists i :: 0 <= i < |tracks| && tracks[i].trackId !in identities)
      && |r.newlyBound| == |TrackIds(tracks) - identities.Keys|
  {
    var m := Prune(identities, tracks);
    BindRecordsNew(m, tracks, names);
    BindNewlyBoundCount(m, tracks, names);
    assert forall i :: 0 <= i < |tracks| ==> tracks[i] in tracks;
    assert forall i :: 0 <= i < |tracks| ==> (tracks[i].trackId in m <==> tracks[i].trackId in identities);
    assert TrackIds(tracks) - m.Keys == TrackIds(tracks) - identities.Keys;
  }

  /** The first track of a new identity in a frame gives that identity its label. */
  lemma {:induction false} BindFirstSighting(m: map<int, string>, tracks: seq<Track>, names: seq<string>)
    ensures var r := Bind(m, tracks, names);
      forall i :: FirstSighting(m, tracks, i) ==> r.display[i].cls == ClassName(names, tracks[i].classId)
    decreases |tracks|
  {
    if |tracks| > 0 {
      var t := tracks[0];
      var m' := if t.trackId in m then m else m[t.trackId := ClassName(names, t.classId)];
      BindFirstSighting(m', tracks[1..], names);
      var r := Bind(m, tracks, names);
      forall i | 0 < i && FirstSighting(m, tracks, i)
        ensures r.display[i].cls == ClassName(names, tracks[i].classId)
      {
        assert tracks[1..][i - 1] == tracks[i];
        assert tracks[i].trackId != t.trackId;
        forall j | 0 <= j < i - 1
          ensures tracks[1..][j].trackId != tracks[1..][i - 1].trackId
        {
          assert tracks[1..][j] == tracks[j + 1];
        }
        assert FirstSighting(m', tracks[1..], i - 1);
      }
    }
  }

  /** Identity memory over consecutive frames. */
  function Run(identities: map<int, string>, frames: seq<seq<Track>>, names: seq<string>): map<int, string>
    decreases |frames|
  {
    if |frames| == 0 then identities
    else Run(Tick(identities, frames[0], names).identities, frames[1..], names)
  }

  /** Once bound, an identity keeps its label across any number of frames,
      provided the tracker reports it in every one of them. */
  lemma {:induction false} LabelStableWhileTracked(identities: map<int, string>, frames: seq<seq<Track>>,
                                                   names: seq<string>, tid: int)
    requires tid in identities
    requires forall k :: 0 <= k < |frames| ==> tid in TrackIds(frames[k])
    ensures tid in Run(identities, frames, names)
    ensures Run(identities, frames, names)[tid] == identities[tid]
    decreases |frames|
  {
    if |frames| > 0 {
      TickBindings(identities, frames[0], names);
      LabelStableWhileTracked(Tick(identities, frames[0], names).identities, frames[1..], names, tid);
    }
  }

  /** A frame that does not report an identity ends its binding. */
  lemma AbsentIdentityForgotten(identities: map<int, string>, tracks: seq<Track>, names: seq<string>, tid: int)
    requires tid !in TrackIds(tracks)
    ensures tid !in Tick(identities, tracks, names).identities
  {
    TickBindings(identities, tracks, names);
  }

  /** The drifting-label scenario: identity 7 is first reported as class 0
      ("PET"), then as class 1 ("HDPE") while still tracked; the second frame
      still displays "PET" and stores nothing new. */
  lemma DriftingClassKeepsFirstLabel()
    ensures var names := ["PET", "HDPE"];
      var first := Tick(map[], [Track(Box(10, 10, 50, 50), 7, 0, 0.9)], names);
      var second := Tick(first.identities, [Track(Box(12, 11, 52, 51), 7, 1, 0.8)], names);
      && second.display[0].cls == "PET"
      && second.newlyBound == []
  {
    var names := ["PET", "HDPE"];
    var t1 := [Track(Box(10, 10, 50, 50), 7, 0, 0.9)];
    var t2 := [Track(Box(12, 11, 52, 51), 7, 1, 0.8)];
    var first := Tick(map[], t1, names);
    TickDisplay(map[], t1, names);
    TickBindings(map[], t1, names);
    assert t1[0] in t1;
    assert FirstSighting(map[], t1, 0);
    assert first.identities[7] == "PET";
    var second := Tick(first.identities, t2, names);
    TickBindings(first.identities, t2, names);
    TickDisplay(first.identities, t2, names);
    TickRecord(first.identities, t2, names);
    assert t2[0] in t2;
    assert TrackIds(t2) == {7};
  }
}

=== FILE: normalizer.dfy ===
/** The label normalizer shared by drawing, statistics and the gallery: a raw
    model class name is mapped to the first target class whose lower-cased name
    occurs in the lower-cased raw name (rec.py:1935-1947,
    Scripts/t-testing-4.1.py:1265-1270). */
module Normalizer {
  import opened Wrappers
  import opened Text

  /** An OpenCV colour, channels in B, G, R order. */
  datatype Color = Color(b: int, g: int, r: int)

  const DefaultColor: Color := Color(200, 200, 200)

  /** The six plastic types the application knows, in display order. */
  const DefinedPlastics: seq<string> := ["PET", "HDPE", "PVC", "LDPE", "PP", "PS"]

  /** Box colours of the in-memory variant (rec.py:1917-1924). */
  const LiveColors: map<string, Color> := map[
    "PET" := Color(0, 255, 255), "HDPE" := Color(0, 165, 255), "LDPE" := Color(0, 255, 0),
    "PVC" := Color(0, 0, 255), "PP" := Color(128, 128, 128), "PS" := Color(128, 0, 128)]

  /** Box colours of the database variant (Scripts/t-testing-4.1.py:1250-1253). */
  const ArchiveColors: map<string, Color> := map[
    "PET" := Color(60, 120, 216), "HDPE" := Color(39, 174, 96), "PVC" := Color(241, 196, 15),
    "LDPE" := Color(231, 76, 60), "PP" := Color(155, 89, 182), "PS" := Color(26, 188, 156)]

  /** `target.lower() in raw.lower()`. */
  predicate Matches(target: string, raw: string) {
    Contains(Lower(raw), Lower(target))
  }

  function FirstMatchFrom(raw: string, classes: seq<string>, k: nat): (r: Option<nat>)
    requires k <= |classes|
    ensures r.Some? ==> (k <= r.value < |classes| && Matches(classes[r.value], raw)
                         && forall j :: k <= j < r.value ==> !Matches(classes[j], raw))
    ensures r.None? ==> forall j :: k <= j < |classes| ==> !Matches(classes[j], raw)
    decreases |classes| - k
  {
    if k == |classes| then None
    else if Matches(classes[k], raw) then Some(k)
    else FirstMatchFrom(raw, classes, k + 1)
  }

  /** Index of the first target class matching `raw`; the loop with `break`
      that every consumer of the class list runs. */
  function FirstMatch(raw: string, classes: seq<string>): (r: Option<nat>)
    ensures r.Some? ==> (r.value < |classes| && Matches(classes[r.value], raw)
                         && forall j :: 0 <= j < r.value ==> !Matches(classes[j], raw))
    ensures r.None? ==> forall j :: 0 <= j < |classes| ==> !Matches(classes[j], raw)
  {
    FirstMatchFrom(raw, classes, 0)
  }

  /** `class_colors.get(name, default_color)`. */
  function ColorOf(table: map<string, Color>, name: string): (c: Color)
    ensures name in table ==> c == table[name]
    ensures name !in table ==> c == DefaultColor
  {
    if name in table then table[name] else DefaultColor
  }

  /** Display label, colour, and whether some target class matched. */
  datatype Normalized = Normalized(name: string, color: Color, matched: bool)

  /** The normalizer: the first matching target class with its colour, or the
      raw label with the default colour when nothing matches. */
  function Normalize(raw: string, classes: seq<string>, table: map<string, Color>): (n: Normalized)
    ensures n.matched <==> exists j :: 0 <= j < |classes| && Matches(classes[j], raw)
    ensures n.matched ==> (FirstMatch(raw, classes).Some?
                           && n.name == classes[FirstMatch(raw, classes).value]
                           && Matches(n.name, raw)
                           && n.color == ColorOf(table, n.name))
    ensures !n.matched ==> n.name == raw && n.color == DefaultColor
  {
    match FirstMatch(raw, classes)
    case Some(i) => Normalized(classes[i], ColorOf(table, classes[i]), true)
    case None => Normalized(raw, DefaultColor, false)
  }

  /** Normalizing a label twice gives the same label and colour as normalizing
      it once. A later class can never win the second time, because its match
      would have won the first time too (substring containment is transitive). */
  lemma NormalizeIdempotent(raw: string, classes: seq<string>, table: map<string, Color>)
    ensures var once := Normalize(raw, classes, table);
      Normalize(once.name, classes, table).name == once.name
      && Normalize(once.name, classes, table).color == once.color
  {
    var once := Normalize(raw, classes, table);
    if once.matched {
      var i := FirstMatch(raw, classes).value;
      ContainsSelf(Lower(classes[i]));
      assert Matches(classes[i], classes[i]);
      var k := FirstMatch(classes[i], classes).value;
      if k < i {
        ContainsTransitive(Lower(raw), Lower(classes[i]), Lower(classes[k]));
        assert false;
      }
      assert k == i;
    }
  }
}

=== FILE: session.dfy ===
/** The detection session of rec.py as a state machine: each UI handler of the
    detection view is a transition of one explicit state (rec.py:420-441 for
    the initial values). The camera, the file system, the model, the tracker
    and text measurement are parameters. */
module Session {
  import opened Wrappers
  import opened Detections
  import opened StatClasses
  import opened Statistics
  import opened Annotator
  import opened IdentityMemory
  import opened HistoryStore
  import opened Controls

  /** A readable image or grabbed frame: its width, what the model answers
      on it for a confidence and an IoU threshold, and what the tracker makes
      of a list of boxes on it. */
  datatype Picture = Picture(width: int, infer: (real, real) -> Inference,
                             track: seq<TrackerInput> -> seq<Track>)

  /** The file system as the session sees it: `os.path.abspath` and `cv2.imread`. */
  datatype Files = Files(absPath: string -> string, read: string -> Option<Picture>)

  /** The session state. `names` is the loaded model's class-name table (None
      until the model is loaded); `snapshot` is the last view's export snapshot. */
  datatype State = State(names: Option<seq<string>>, conf: real, iou: real,
                         paths: seq<string>, index: int, currentPath: Option<string>,
                         webcamRunning: bool, history: seq<Record>, identities: map<int, string>,
                         stats: StatsView, snapshot: seq<ExportRow>)

  function Classes(s: State): seq<string> {
    LiveStatClasses(s.names)
  }

  /** What holds between any two handler calls. */
  predicate Valid(s: State) {
    && InUnit(s.conf) && InUnit(s.iou)
    && IndexValid(s.paths, s.index)
    && WellNumbered(s.history) && UniquePaths(s.history)
    && (s.webcamRunning ==> s.names.Some? && s.paths == [])
    && |s.stats.counts| == |Classes(s)|
  }

  /** The state right after start-up: thresholds 0.50, nothing loaded. */
  function Initial(): (s: State)
    ensures Valid(s)
    ensures s.history == [] && s.identities == map[] && !s.webcamRunning
  {
    State(None, 0.5, 0.5, [], -1, None, false, [], map[], Cleared([]), [])
  }

  /** The model finished loading: its class names become available and the
      six stat cards are shown empty. */
  function ModelLoaded(s: State, names: seq<string>): (r: State)
    requires Valid(s)
    ensures Valid(r)
    ensures Classes(r) == Normalizer.DefinedPlastics
    ensures r.history == s.history && r.paths == s.paths
  {
    var r := s.(names := Some(names));
    r.(stats := Cleared(Classes(r)))
  }

  /** `os.path.basename` with '/' as the separator. */
  function BaseName(p: string): (r: string)
    ensures |r| <= |p| && r == p[|p| - |r|..]
    ensures forall k :: 0 <= k < |r| ==> r[k] != '/'
  {
    if |p| == 0 || p[|p| - 1] == '/' then []
    else BaseName(p[..|p| - 1]) + [p[|p| - 1]]
  }

  /** `run_model_on_image_path`. Without a model, or when the image cannot be
      read, the statistics are cleared and nothing else changes. Otherwise
      the stored detections (reused or freshly inferred at the floor
      confidence) are filtered at the current threshold, annotated, and
      projected into the statistics; the export snapshot is replaced. */
  function ProcessImage(s: State, path: string, files: Files, now: int, measure: LabelSpec -> TextSize): (r: State)
    requires Valid(s)
    ensures Valid(r)
    ensures r.names == s.names && r.conf == s.conf && r.iou == s.iou && r.paths == s.paths
    ensures r.index == s.index && r.currentPath == s.currentPath && r.webcamRunning == s.webcamRunning
    ensures r.identities == s.identities
    ensures s.names.None? || files.read(files.absPath(path)).None? ==>
      r == s.(stats := Cleared(Classes(s)))
    ensures |s.history| <= |r.history| <= |s.history| + 1
    ensures r.history[..|s.history|] == s.history
  {
    if s.names.None? then s.(stats := Cleared(Classes(s)))
    else
      var abs := files.absPath(path);
      match files.read(abs)
      case None => s.(stats := Cleared(Classes(s)))
      case Some(pic) =>
        var out := StoreFile(s.history, abs, now, s.conf, s.iou, s.names.value, pic.infer);
        var display := FilterByConfidence(out.stored, s.conf);
        var a := Annotate(Live, display, Classes(s), BaseName(abs), pic.width, measure);
        s.(history := out.history,
           snapshot := a.rows,
           stats := Project(display, Classes(s), out.timeMs, true))
  }

  /** Processing an image the history already holds re-filters its stored
      detections at the current threshold without running the model: the
      history does not change, and what is shown and exported is exactly the
      stored detections that reach the threshold. */
  lemma ReprocessUsesStoredDetections(s: State, path: string, files: Files, now: int,
                                      measure: LabelSpec -> TextSize)
    requires Valid(s) && s.names.Some?
    requires files.read(files.absPath(path)).Some?
    requires FindPath(s.history, files.absPath(path)).Some?
    ensures var r := ProcessImage(s, path, files, now, measure);
      var stored := s.history[FindPath(s.history, files.absPath(path)).value].detections;
      && r.history == s.history
      && |r.snapshot| == |FilterByConfidence(stored, s.conf)|
      && r.stats.total == |FilterByConfidence(stored, s.conf)|
      && (forall i :: 0 <= i < |r.snapshot| ==> r.snapshot[i].conf >= s.conf && r.snapshot[i].objectId == i + 1)
  {
    var abs := files.absPath(path);
    var pic := files.read(abs).value;
    var out := StoreFile(s.history, abs, now, s.conf, s.iou, s.names.value, pic.infer);
    var display := FilterByConfidence(out.stored, s.conf);
    var a := Annotate(Live, display, Classes(s), BaseName(abs), pic.width, measure);
    var r := ProcessImage(s, path, files, now, measure);
    assert r.snapshot == a.rows && r.history == out.history;
    assert r.stats == Project(display, Classes(s), out.timeMs, true);
    forall i | 0 <= i < |a.rows| ensures a.rows[i].conf >= s.conf {
      assert display[i] in display;
    }
  }

  /** Processing an image the history does not hold yet runs the model once
      at the floor confidence: exactly one record is appended, numbered after
      the existing ones, holding every detection and the inference time; what
      is shown and exported is that record's detections at the current
      threshold, in order and numbered from 1. */
  lemma ProcessNewImage(s: State, path: string, files: Files, now: int, measure: LabelSpec -> TextSize)
    requires Valid(s) && s.names.Some?
    requires files.read(files.absPath(path)).Some?
    requires FindPath(s.history, files.absPath(path)).None?
    ensures var r := ProcessImage(s, path, files, now, measure);
      var abs := files.absPath(path);
      var inf := files.read(abs).value.infer(FloorConfidence, s.iou);
      var stored := FromRaw(inf.raws, s.names.value);
      && |r.history| == |s.history| + 1
      && r.history[..|s.history|] == s.history
      && r.history[|s.history|] == Record(|s.history| + 1, now, Some(abs), File, inf.timeMs, s.conf, s.iou, stored)
    ensures var r := ProcessImage(s, path, files, now, measure);
      var abs := files.absPath(path);
      var inf := files.read(abs).value.infer(FloorConfidence, s.iou);
      var display := FilterByConfidence(r.history[|s.history|].detections, s.conf);
      && r.stats.total == |display|
      && r.stats.timeMs == inf.timeMs
      && (forall i :: 0 <= i < |Classes(s)| ==> r.stats.counts[i] == ClassCount(display, Classes(s), i))
      && |r.snapshot| == |display|
      && (forall i :: 0 <= i < |display| ==>
            && r.snapshot[i].objectId == i + 1
            && r.snapshot[i].conf == display[i].conf
            && r.snapshot[i].box == display[i].box)
  {
    var abs := files.absPath(path);
    var pic := files.read(abs).value;
    var inf := pic.infer(FloorConfidence, s.iou);
    var out := StoreFile(s.history, abs, now, s.conf, s.iou, s.names.value, pic.infer);
    assert out.timeMs == inf.timeMs;
    var display := FilterByConfidence(out.stored, s.conf);
    var a := Annotate(Live, display, Classes(s), BaseName(abs), pic.width, measure);
    var r := ProcessImage(s, path, files, now, measure);
    assert r.snapshot == a.rows && r.history == out.history;
    assert r.stats == Project(display, Classes(s), out.timeMs, true);
  }

  /** `update_webcam_frame`. Nothing happens unless the webcam is running and
      a frame was grabbed; a lost camera stops the webcam. Otherwise the
      model runs at the live thresholds, the tracker turns its boxes into
      tracks (no boxes: no tracks), the identity memory is updated, a record
      is stored for newly bound identities, and the statistics show the
      tracked detections. An empty frame keeps the previous export snapshot. */
  function WebcamTick(s: State, cameraOpen: bool, frame: Option<Picture>, now: int,
                      measure: LabelSpec -> TextSize): (r: State)
    requires Valid(s)
    ensures Valid(r)
    ensures !s.webcamRunning ==> r == s
  {
    if !s.webcamRunning then s
    else if !cameraOpen then StopWebcam(s)
    else if frame.None? then s
    else
      var pic := frame.value;
      var inf := pic.infer(s.conf, s.iou);
      var tracks := if |inf.raws| > 0 then pic.track(TrackerInputs(inf.raws)) else [];
      var t := Tick(s.identities, tracks, s.names.value);
      var snapshot := if t.display == [] then s.snapshot
                      else Annotate(Live, t.display, Classes(s), "webcam_tracked_frame", pic.width, measure).rows;
      s.(identities := t.identities,
         history := StoreTracked(s.history, now, inf.timeMs, s.conf, s.iou, t.newlyBound),
         snapshot := snapshot,
         stats := Project(t.display, Classes(s), inf.timeMs, true))
  }

  /** A webcam tick stores a record exactly when some tracked identity is new,
      leaves the identity map holding exactly this frame's identities, and
      shows one detection per track. */
  lemma WebcamTickRecords(s: State, frame: Picture, now: int, measure: LabelSpec -> TextSize)
    requires Valid(s) && s.webcamRunning
    ensures var r := WebcamTick(s, true, Some(frame), now, measure);
      var inf := frame.infer(s.conf, s.iou);
      var tracks := if |inf.raws| > 0 then frame.track(TrackerInputs(inf.raws)) else [];
      && r.identities.Keys == TrackIds(tracks)
      && r.stats.total == |tracks|
      && (|r.history| == |s.history| + 1 <==> exists i :: 0 <= i < |tracks| && tracks[i].trackId !in s.identities)
      && (|r.history| == |s.history| || |r.history| == |s.history| + 1)
  {
    var inf := frame.infer(s.conf, s.iou);
    var tracks := if |inf.raws| > 0 then frame.track(TrackerInputs(inf.raws)) else [];
    TickBindings(s.identities, tracks, s.names.value);
    TickRecord(s.identities, tracks, s.names.value);
  }

  /** `toggle_webcam` while running (which implies a loaded model): the
      webcam stops and the export snapshot is emptied; the identity memory,
      the statistics and the history stay. */
  function StopWebcam(s: State): (r: State)
    requires Valid(s) && s.webcamRunning
    ensures Valid(r)
    ensures !r.webcamRunning && r.snapshot == []
    ensures r.identities == s.identities && r.history == s.history && r.stats == s.stats
  {
    s.(webcamRunning := false, snapshot := [])
  }

  /** `toggle_webcam` while stopped. Without a model, or with no camera
      selected, nothing changes. Otherwise the image list, the display and
      the identity memory are reset, and the webcam runs if the camera opened. */
  function StartWebcam(s: State, cameraSelected: bool, cameraOpens: bool): (r: State)
    requires Valid(s) && !s.webcamRunning
    ensures Valid(r)
    ensures s.names.None? || !cameraSelected ==> r == s
    ensures s.names.Some? && cameraSelected ==>
      && r.paths == [] && r.index == -1 && r.identities == map[] && r.snapshot == []
      && r.stats == Cleared(Classes(s))
      && r.webcamRunning == cameraOpens
    ensures r.history == s.history
  {
    if s.names.None? || !cameraSelected then s
    else s.(paths := [], index := -1, identities := map[], snapshot := [],
            stats := Cleared(Classes(s)), webcamRunning := cameraOpens)
  }

  /** `load_dropped_images`: a running webcam is stopped, the new list is
      loaded, and its first image (if any) becomes current and is processed.
      An empty list leaves the previous current path in place. Its callers,
      `upload_images` and `dropEvent`, call it only with a model loaded and a
      non-empty list (see `ChooseImages`). */
  function LoadImages(s: State, newPaths: seq<string>, files: Files, now: int,
                      measure: LabelSpec -> TextSize): (r: State)
    requires Valid(s)
    ensures Valid(r)
    ensures r.paths == newPaths
    ensures newPaths == [] ==> r.index == -1 && r.currentPath == s.currentPath
    ensures newPaths != [] ==> r.index == 0 && r.currentPath == Some(newPaths[0])
    ensures !r.webcamRunning || s.names.None?
  {
    var s1 := if s.webcamRunning then StopWebcam(s) else s;
    if newPaths == [] then s1.(paths := [], index := -1)
    else
      assert !s1.webcamRunning;
      ProcessImage(s1.(paths := newPaths, index := 0, currentPath := Some(newPaths[0])),
                   newPaths[0], files, now, measure)
  }

  /** `upload_images` (`viaDialog`) and `dropEvent`. Loading images needs a
      model: without one nothing changes. With one, a non-empty list replaces
      the images and makes its first one current; an empty choice in the
      dialog only stops the webcam, and a drop without image files changes
      nothing. */
  function ChooseImages(s: State, newPaths: seq<string>, viaDialog: bool, files: Files, now: int,
                        measure: LabelSpec -> TextSize): (r: State)
    requires Valid(s)
    ensures Valid(r)
    ensures s.names.None? ==> r == s
    ensures s.names.Some? && newPaths != [] ==>
      r.paths == newPaths && r.index == 0 && r.currentPath == Some(newPaths[0]) && !r.webcamRunning
    ensures s.names.Some? && newPaths == [] ==>
      r.paths == s.paths && r.history == s.history && (!r.webcamRunning <==> !s.webcamRunning || viaDialog)
  {
    if s.names.None? then s
    else if newPaths != [] then LoadImages(s, newPaths, files, now, measure)
    else if viaDialog && s.webcamRunning then StopWebcam(s)
    else s
  }

  /** `prev_image` / `next_image`: on a move, the new index's image becomes
      current and is processed. */
  function Navigate(s: State, d: Direction, files: Files, now: int, measure: LabelSpec -> TextSize): (r: State)
    requires Valid(s)
    ensures Valid(r)
    ensures Step(d, s.paths, s.index, s.names.Some?).None? ==> r == s
    ensures Step(d, s.paths, s.index, s.names.Some?).Some? ==>
      && r.index == Step(d, s.paths, s.index, s.names.Some?).value
      && r.currentPath == Some(s.paths[r.index])
    ensures r.paths == s.paths
  {
    match Step(d, s.paths, s.index, s.names.Some?)
    case None => s
    case Some(i) =>
      ProcessImage(s.(index := i, currentPath := Some(s.paths[i])), s.paths[i], files, now, measure)
  }

  datatype ThresholdField = ConfidenceField | IouField

  /** Editing a threshold field: an accepted value takes effect and the
      current image, if there is one, is processed again; a refused value
      changes nothing. */
  function EditField(s: State, field: ThresholdField, parsed: Option<real>, files: Files, now: int,
                     measure: LabelSpec -> TextSize): (r: State)
    requires Valid(s)
    ensures Valid(r)
    ensures !(parsed.Some? && InUnit(parsed.value)) ==> r == s
    ensures parsed.Some? && InUnit(parsed.value) ==>
      (if field.ConfidenceField? then r.conf == parsed.value && r.iou == s.iou
       else r.iou == parsed.value && r.conf == s.conf)
    ensures r.paths == s.paths && r.index == s.index
  {
    var current := if field.ConfidenceField? then s.conf else s.iou;
    var e := EditThreshold(current, parsed);
    if !e.accepted then s
    else
      var s1 := if field.ConfidenceField? then s.(conf := e.value) else s.(iou := e.value);
      if s1.currentPath.Some? && s1.currentPath.value != [] then
        ProcessImage(s1, s1.currentPath.value, files, now, measure)
      else s1
  }

  /** Changing the confidence threshold while an image already in history is
      current never runs the model again and never changes the history: the
      new threshold is applied to the stored detections. */
  lemma ThresholdChangeKeepsHistory(s: State, v: real, files: Files, now: int, measure: LabelSpec -> TextSize)
    requires Valid(s) && InUnit(v)
    requires s.currentPath.Some? && s.currentPath.value != []
    requires FindPath(s.history, files.absPath(s.currentPath.value)).Some?
    ensures EditField(s, ConfidenceField, Some(v), files, now, measure).history == s.history
  {
  }

  /** `clear_all_history` after the user confirmed: history and the export
      snapshot are emptied and the statistics cleared. The identity memory is
      left as it is. Declining changes nothing. */
  function ClearAll(s: State, confirmed: bool): (r: State)
    requires Valid(s)
    ensures Valid(r)
    ensures !confirmed ==> r == s
    ensures confirmed ==> r.history == [] && r.snapshot == [] && r.stats == Cleared(Classes(s))
    ensures r.identities == s.identities
  {
    if !confirmed then s
    else s.(history := ClearHistory(s.history, true), snapshot := [], stats := Cleared(Classes(s)))
  }

  /** One user or timer event. `Load` is a drop of image files or the file
      dialog of `upload_images` (`viaDialog`): both do nothing without a model;
      the dialog stops a running webcam before it opens, even when nothing is
      chosen, and a drop without image files does nothing. */
  datatype Event =
    | LoadModel(names: seq<string>)
    | Process(path: string)
    | Frame(cameraOpen: bool, frame: Option<Picture>)
    | Stop
    | Start(cameraSelected: bool, cameraOpens: bool)
    | Load(newPaths: seq<string>, viaDialog: bool)
    | Move(d: Direction)
    | Edit(field: ThresholdField, parsed: Option<real>)
    | Clear(confirmed: bool)

  function Apply(s: State, e: Event, files: Files, now: int, measure: LabelSpec -> TextSize): (r: State)
    requires Valid(s)
    ensures Valid(r)
  {
    match e
    case LoadModel(names) => if s.names.None? then ModelLoaded(s, names) else s
    case Process(path) => ProcessImage(s, path, files, now, measure)
    case Frame(open, frame) => WebcamTick(s, open, frame, now, measure)
    case Stop => if s.webcamRunning then StopWebcam(s) else s
    case Start(selected, opens) => if s.webcamRunning then s else StartWebcam(s, selected, opens)
    case Load(newPaths, viaDialog) => ChooseImages(s, newPaths, viaDialog, files, now, measure)
    case Move(d) => Navigate(s, d, files, now, measure)
    case Edit(field, parsed) => EditField(s, field, parsed, files, now, measure)
    case Clear(confirmed) => ClearAll(s, confirmed)
  }

  /** The state after a run of events, each at its own clock reading. */
  function Run(s: State, events: seq<Event>, times: seq<int>, files: Files, measure: LabelSpec -> TextSize): (r: State)
    requires Valid(s) && |times| == |events|
    ensures Valid(r)
    decreases |events|
  {
    if |events| == 0 then s
    else Run(Apply(s, events[0], files, times[0], measure), events[1..], times[1..], files, measure)
  }

  /** Along any run from start-up, record ids stay `1, 2, 3, ...` in storage
      order, no image path is stored twice, both thresholds stay in [0, 1]
      and the image index stays valid. */
  lemma {:induction false} RunFromStartIsValid(events: seq<Event>, times: seq<int>, files: Files,
                                               measure: LabelSpec -> TextSize)
    requires |times| == |events|
    ensures var r := Run(Initial(), events, times, files, measure);
      && WellNumbered(r.history) && UniquePaths(r.history)
      && InUnit(r.conf) && InUnit(r.iou)
      && IndexValid(r.paths, r.index)
  {
  }
}

=== FILE: statclasses.dfy ===
/** The list of classes that get a statistics card, derived from the model's
    class names by `setup_stat_cards` (Scripts/t-testing-4.1.py:596-620,
    rec.py:1011-1037). */
module StatClasses {
  import opened Wrappers
  import opened Text
  import opened Detections
  import opened Normalizer

  /** Number of statistics cards the derivation fills at most. */
  const MaxCards: nat := 6

  /** Python's `a <= b` on strings: lexicographic by code point. */
  predicate StrLe(a: string, b: string)
    decreases |a|
  {
    |a| == 0 || (|b| > 0 && (a[0] < b[0] || (a[0] == b[0] && StrLe(a[1..], b[1..]))))
  }

  lemma {:induction false} StrLeTotal(a: string, b: string)
    ensures StrLe(a, b) || StrLe(b, a)
    decreases |a|
  {
    if |a| > 0 && |b| > 0 && a[0] == b[0] {
      StrLeTotal(a[1..], b[1..]);
    }
  }

  /** Every adjacent pair is in order. */
  predicate Sorted(s: seq<string>) {
    forall i :: 0 <= i < |s| - 1 ==> StrLe(s[i], s[i + 1])
  }

  function InsertSorted(x: string, s: seq<string>): (r: seq<string>)
    ensures multiset(r) == multiset(s) + multiset{x}
    ensures |r| == |s| + 1
    ensures r[0] == x || (|s| > 0 && r[0] == s[0])
    ensures Sorted(s) ==> Sorted(r)
  {
    if |s| == 0 then [x]
    else if StrLe(x, s[0]) then [x] + s
    else
      StrLeTotal(x, s[0]);
      var rest := InsertSorted(x, s[1..]);
      assert s == [s[0]] + s[1..];
      [s[0]] + rest
  }

  /** `sorted(names)`: an ordered permutation of `names`. */
  function SortNames(names: seq<string>): (r: seq<string>)
    ensures multiset(r) == multiset(names)
    ensures Sorted(r)
  {
    if |names| == 0 then []
    else
      assert names == [names[0]] + names[1..];
      InsertSorted(names[0], SortNames(names[1..]))
  }

  /** Some defined plastic occurs in `name` (the filter of `remaining_model_names`). */
  predicate HasDefinedPlastic(name: string) {
    exists k :: 0 <= k < |DefinedPlastics| && Matches(DefinedPlastics[k], name)
  }

  /** Some model name contains the plastic `dp`. */
  predicate NamedByModel(dp: string, names: seq<string>) {
    exists n :: n in names && Matches(dp, n)
  }

  function MatchedFrom(plastics: seq<string>, names: seq<string>): (r: seq<string>)
    ensures IsSubsequence(r, plastics)
    ensures forall dp :: dp in r ==> dp in plastics && NamedByModel(dp, names)
    ensures forall dp :: dp in plastics && NamedByModel(dp, names) ==> dp in r
  {
    if |plastics| == 0 then []
    else if NamedByModel(plastics[0], names) then [plastics[0]] + MatchedFrom(plastics[1..], names)
    else
      var rest := MatchedFrom(plastics[1..], names);
      assert |rest| > 0 ==> rest[0] in rest;
      rest
  }

  /** The defined plastics some model name contains, in the defined order
      (the nested loop whose `dp not in model_plastic_names` guard keeps each
      plastic once). */
  function MatchedPlastics(names: seq<string>): (r: seq<string>)
    ensures |r| <= |DefinedPlastics|
    ensures forall i, j :: 0 <= i < j < |r| ==> r[i] != r[j]
    ensures forall dp :: dp in r <==> dp in DefinedPlastics && NamedByModel(dp, names)
    ensures IsSubsequence(r, DefinedPlastics)
  {
    var r := MatchedFrom(DefinedPlastics, names);
    SubsequenceOfDistinct(r, DefinedPlastics);
    r
  }

  lemma {:induction false} SubsequenceOfDistinct(a: seq<string>, b: seq<string>)
    requires IsSubsequence(a, b)
    requires forall i, j :: 0 <= i < j < |b| ==> b[i] != b[j]
    ensures |a| <= |b|
    ensures forall i, j :: 0 <= i < j < |a| ==> a[i] != a[j]
    ensures forall x :: x in a ==> x in b
    decreases |b|
  {
    if |a| > 0 {
      if a[0] == b[0] {
        SubsequenceOfDistinct(a[1..], b[1..]);
        forall j | 0 < j < |a|
          ensures a[0] != a[j]
        {
          assert a[j] in a[1..];
          assert a[j] in b[1..];
          var k :| 1 <= k < |b| && b[k] == a[j];
        }
        forall x | x in a
          ensures x in b
        {
          if x != a[0] {
            assert x in a[1..];
          }
        }
      } else {
        SubsequenceOfDistinct(a, b[1..]);
      }
    }
  }

  /** `[name for name in names if not any(dp.lower() in name.lower() ...)]`. */
  function Remaining(names: seq<string>): (r: seq<string>)
    ensures forall n :: n in r <==> n in names && !HasDefinedPlastic(n)
  {
    if |names| == 0 then []
    else if HasDefinedPlastic(names[0]) then Remaining(names[1..])
    else [names[0]] + Remaining(names[1..])
  }

  /** The derived list of the database variant: the matched plastics, topped
      up to six entries with model names that contain no defined plastic. */
  function Derive(sortedNames: seq<string>): (r: seq<string>)
    ensures var m := |MatchedPlastics(sortedNames)|;
      var rest := Remaining(sortedNames);
      && m <= |r|
      && r[..m] == MatchedPlastics(sortedNames)
      && r[m..] == rest[..if MaxCards - m < |rest| then MaxCards - m else |rest|]
  {
    var matched := MatchedPlastics(sortedNames);
    var remaining := Remaining(sortedNames);
    var needed := MaxCards - |matched|;
    matched + remaining[..if needed < |remaining| then needed else |remaining|]
  }

  /** The derivation yields something exactly when the model has class names. */
  lemma DeriveEmptyIffNoNames(names: seq<string>)
    ensures Derive(names) == [] <==> names == []
  {
    var matched := MatchedPlastics(names);
    var remaining := Remaining(names);
    var needed := MaxCards - |matched|;
    var take := if needed < |remaining| then needed else |remaining|;
    assert Derive(names) == matched + remaining[..take];
    if names != [] {
      var n := names[0];
      assert n in names;
      if HasDefinedPlastic(n) {
        var k :| 0 <= k < |DefinedPlastics| && Matches(DefinedPlastics[k], n);
        assert NamedByModel(DefinedPlastics[k], names);
        assert DefinedPlastics[k] in matched;
      } else {
        assert n in remaining;
        assert |matched| == 0 ==> take >= 1;
      }
    } else {
      MatchedFromNoNames(DefinedPlastics);
      assert remaining == [];
    }
  }

  lemma {:induction false} MatchedFromNoNames(plastics: seq<string>)
    ensures MatchedFrom(plastics, []) == []
    decreases |plastics|
  {
    if |plastics| > 0 {
      assert !NamedByModel(plastics[0], []);
      MatchedFromNoNames(plastics[1..]);
    }
  }

  /** `setup_stat_cards` of the database variant. `names` is `None` when no
      model (or no class-name dictionary) is available. The list is never
      empty and holds at most six entries: first the matched defined plastics
      in defined order and without repetition, then model names that contain
      no defined plastic; when nothing is derived it is the six defaults. */
  function ArchiveStatClasses(names: Option<seq<string>>): (r: seq<string>)
    ensures 1 <= |r| <= MaxCards
    ensures names.None? || names.value == [] ==> r == DefinedPlastics
    ensures names.Some? && names.value != [] ==>
      var m := |MatchedPlastics(names.value)|;
      && m <= |r|
      && (forall dp :: dp in r[..m] <==> dp in DefinedPlastics && NamedByModel(dp, names.value))
      && IsSubsequence(r[..m], DefinedPlastics)
      && (forall i, j :: 0 <= i < j < m ==> r[i] != r[j])
      && (forall k :: m <= k < |r| ==> r[k] in names.value && !HasDefinedPlastic(r[k]))
    ensures names.Some? && names.value != [] ==>
      var m := |MatchedPlastics(names.value)|;
      var rest := Remaining(SortNames(names.value));
      m <= |r| && r[m..] == rest[..if MaxCards - m < |rest| then MaxCards - m else |rest|]
  {
    match names
    case None => DefinedPlastics
    case Some(ns) =>
      DerivedShape(ns);
      var derived := Derive(SortNames(ns));
      if derived != [] then derived else DefinedPlastics
  }

  /** The derived list for the model names `ns`: empty exactly when there
      are no names, and otherwise the shape `ArchiveStatClasses` promises. */
  lemma DerivedShape(ns: seq<string>)
    ensures var r := Derive(SortNames(ns));
      && (r == [] <==> ns == [])
      && |r| <= MaxCards
    ensures ns != [] ==>
      var r := Derive(SortNames(ns));
      var m := |MatchedPlastics(ns)|;
      && m <= |r|
      && (forall dp :: dp in r[..m] <==> dp in DefinedPlastics && NamedByModel(dp, ns))
      && IsSubsequence(r[..m], DefinedPlastics)
      && (forall i, j :: 0 <= i < j < m ==> r[i] != r[j])
      && (forall k :: m <= k < |r| ==> r[k] in ns && !HasDefinedPlastic(r[k]))
      && r[m..] == Remaining(SortNames(ns))[..if MaxCards - m < |Remaining(SortNames(ns))| then MaxCards - m else |Remaining(SortNames(ns))|]
  {
    var sorted := SortNames(ns);
    var r := Derive(sorted);
    DeriveEmptyIffNoNames(sorted);
    assert sorted == [] <==> ns == [] by { assert |multiset(sorted)| == |multiset(ns)|; }
    SortedKeepsMatches(ns, sorted);
    assert forall n :: n in sorted <==> n in ns by {
      assert forall n :: n in sorted <==> n in multiset(sorted);
    }
    var m := |MatchedPlastics(ns)|;
    forall k | m <= k < |r|
      ensures r[k] in ns && !HasDefinedPlastic(r[k])
    {
      assert r[k] == r[m..][k - m];
      assert r[k] in Remaining(sorted);
    }
  }

  lemma SortedKeepsMatches(ns: seq<string>, sorted: seq<string>)
    requires multiset(sorted) == multiset(ns)
    ensures MatchedPlastics(sorted) == MatchedPlastics(ns)
  {
    assert forall n :: n in sorted <==> n in ns by {
      assert forall n :: n in sorted <==> n in multiset(sorted);
      assert forall n :: n in ns <==> n in multiset(ns);
    }
    assert forall dp :: NamedByModel(dp, sorted) <==> NamedByModel(dp, ns);
    SameMatchedFrom(DefinedPlastics, sorted, ns);
  }

  lemma {:induction false} SameMatchedFrom(plastics: seq<string>, a: seq<string>, b: seq<string>)
    requires forall dp :: NamedByModel(dp, a) <==> NamedByModel(dp, b)
    ensures MatchedFrom(plastics, a) == MatchedFrom(plastics, b)
  {
    if |plastics| > 0 {
      SameMatchedFrom(plastics[1..], a, b);
    }
  }

  /** `f"Class_{i}" for i in range(count)`. */
  function Placeholders(count: nat): (r: seq<string>)
    ensures |r| == count
  {
    if count == 0 then [] else Placeholders(count - 1) + ["Class_" + NatToString(count - 1)]
  }

  /** `setup_stat_cards` of the in-memory variant. Its derivation (the same as
      `Derive` up to an early `break` and a `< 6` guard, neither of which
      changes the result) is followed by an `else` branch that replaces every
      non-empty list by the six defaults; so with a model loaded the cards are
      always the six defined plastics, and without one there are none. */
  function LiveStatClasses(names: Option<seq<string>>): (r: seq<string>)
    ensures names.Some? ==> r == DefinedPlastics
    ensures names.None? ==> r == []
  {
    var derived: seq<string> :=
      match names
      case None => []
      case Some(ns) => (var d := Derive(SortNames(ns)); if d != [] then d else DefinedPlastics);
    var placeholderCount: nat :=
      match names
      case None => 0
      case Some(ns) => if |ns| < MaxCards then |ns| else MaxCards;
    if derived == [] then Placeholders(placeholderCount) else DefinedPlastics
  }
}

=== FILE: statistics.dfy ===
/** The statistics projector behind the per-class cards of the detection view:
    `update_detection_statistics_from_list` and
    `clear_detection_statistics_display` (rec.py:2005-2026, 2058-2099;
    Scripts/t-testing-4.1.py:1311-1381). */
module Statistics {
  import opened Wrappers
  import opened Detections
  import opened Normalizer

  function Sum(s: seq<nat>): nat {
    if |s| == 0 then 0 else s[0] + Sum(s[1..])
  }

  lemma {:induction false} SumBump(s: seq<nat>, i: nat)
    requires i < |s|
    ensures Sum(s[i := s[i] + 1]) == Sum(s) + 1
  {
    if i > 0 {
      SumBump(s[1..], i - 1);
      assert s[i := s[i] + 1][1..] == s[1..][i - 1 := s[1..][i - 1] + 1];
    }
  }

  lemma {:induction false} ElementAtMostSum(s: seq<nat>, i: nat)
    requires i < |s|
    ensures s[i] <= Sum(s)
  {
    if i > 0 {
      ElementAtMostSum(s[1..], i - 1);
    }
  }

  function Zeros(n: nat): (r: seq<nat>)
    ensures |r| == n && forall i :: 0 <= i < n ==> r[i] == 0
  {
    seq(n, _ => 0)
  }

  lemma {:induction false} SumAllZero(s: seq<nat>)
    requires forall i :: 0 <= i < |s| ==> s[i] == 0
    ensures Sum(s) == 0
  {
    if |s| > 0 {
      SumAllZero(s[1..]);
    }
  }

  /** One detection's contribution: the count of its bucket goes up by one. */
  function Tally(counts: seq<nat>, bucket: Option<nat>): seq<nat> {
    if bucket.Some? && bucket.value < |counts| then counts[bucket.value := counts[bucket.value] + 1]
    else counts
  }

  /** Per-class counts, in the order detections are visited: each detection
      counts for the first target class it matches, and for none if it
      matches none. */
  function BucketCounts(dets: seq<Detection>, classes: seq<string>): (r: seq<nat>)
    ensures |r| == |classes|
  {
    if |dets| == 0 then Zeros(|classes|)
    else Tally(BucketCounts(dets[..|dets| - 1], classes), FirstMatch(dets[|dets| - 1].cls, classes))
  }

  function Indicator(b: bool): nat {
    if b then 1 else 0
  }

  /** Reference count, read front to back: how many detections have
      `classes[i]` as their first matching class. */
  function ClassCount(dets: seq<Detection>, classes: seq<string>, i: nat): nat {
    if |dets| == 0 then 0
    else Indicator(FirstMatch(dets[0].cls, classes) == Some(i)) + ClassCount(dets[1..], classes, i)
  }

  /** Reference count: how many detections match some target class at all. */
  function MatchedCount(dets: seq<Detection>, classes: seq<string>): (n: nat)
    ensures n <= |dets|
  {
    if |dets| == 0 then 0
    else Indicator(FirstMatch(dets[0].cls, classes).Some?) + MatchedCount(dets[1..], classes)
  }

  lemma {:induction false} CountsAppend(a: seq<Detection>, d: Detection, classes: seq<string>, i: nat)
    ensures ClassCount(a + [d], classes, i) == ClassCount(a, classes, i) + Indicator(FirstMatch(d.cls, classes) == Some(i))
    ensures MatchedCount(a + [d], classes) == MatchedCount(a, classes) + Indicator(FirstMatch(d.cls, classes).Some?)
  {
    if |a| > 0 {
      assert (a + [d])[1..] == a[1..] + [d];
      CountsAppend(a[1..], d, classes, i);
    }
  }

  /** The count of class `i` is the number of detections whose first match is
      class `i`. */
  lemma {:induction false} BucketCountsPerClass(dets: seq<Detection>, classes: seq<string>, i: nat)
    requires i < |classes|
    ensures BucketCounts(dets, classes)[i] == ClassCount(dets, classes, i)
  {
    if |dets| > 0 {
      var n := |dets| - 1;
      BucketCountsPerClass(dets[..n], classes, i);
      assert dets == dets[..n] + [dets[n]];
      CountsAppend(dets[..n], dets[n], classes, i);
    }
  }

  /** Each detection lands in at most one bucket, so the counts add up to the
      number of detections that matched some class, which is at most the total. */
  lemma {:induction false} BucketCountsSum(dets: seq<Detection>, classes: seq<string>)
    ensures Sum(BucketCounts(dets, classes)) == MatchedCount(dets, classes)
    ensures Sum(BucketCounts(dets, classes)) <= |dets|
  {
    if |dets| == 0 {
      SumAllZero(Zeros(|classes|));
    } else {
      var n := |dets| - 1;
      BucketCountsSum(dets[..n], classes);
      assert dets == dets[..n] + [dets[n]];
      CountsAppend(dets[..n], dets[n], classes, 0);
      var b := FirstMatch(dets[n].cls, classes);
      if b.Some? {
        SumBump(BucketCounts(dets[..n], classes), b.value);
      }
    }
  }

  /** The counting loop of the source, with the early `break` after the first
      matching class. */
  method CountDetections(dets: seq<Detection>, classes: seq<string>) returns (counts: seq<nat>)
    ensures counts == BucketCounts(dets, classes)
  {
    counts := Zeros(|classes|);
    var k := 0;
    while k < |dets|
      invariant 0 <= k <= |dets|
      invariant counts == BucketCounts(dets[..k], classes)
    {
      assert dets[..k + 1][..k] == dets[..k];
      var j := 0;
      while j < |classes|
        invariant 0 <= j <= |classes|
        invariant forall jj :: 0 <= jj < j ==> !Matches(classes[jj], dets[k].cls)
        invariant counts == BucketCounts(dets[..k], classes)
      {
        if Matches(classes[j], dets[k].cls) {
          assert FirstMatch(dets[k].cls, classes) == Some(j);
          counts := counts[j := counts[j] + 1];
          break;
        }
        j := j + 1;
      }
      k := k + 1;
    }
    assert dets[..k] == dets;
  }

  /** `int(count / max(1, total) * 100)` in integer arithmetic (the float form
      can come out one lower). */
  function Percent(count: nat, total: nat): (p: int)
    requires count <= total
    ensures 0 <= p <= 100
    ensures total > 0 ==> p * total <= count * 100 < (p + 1) * total
    ensures total == 0 ==> p == 0
  {
    if total > 0 then count * 100 / total else 0
  }

  /** What the detection view's statistics area shows: one count and one
      progress value per stat class, the total, and the processing time. */
  datatype StatsView = StatsView(counts: seq<nat>, progress: seq<int>, total: nat, timeMs: real)

  /** `clear_detection_statistics_display`: every class card, the total and
      the time reset to zero. */
  function Cleared(classes: seq<string>): (v: StatsView)
    ensures |v.counts| == |classes| && |v.progress| == |classes|
    ensures forall i :: 0 <= i < |classes| ==> v.counts[i] == 0 && v.progress[i] == 0
    ensures v.total == 0 && v.timeMs == 0.0
  {
    StatsView(Zeros(|classes|), ZeroPercents(|classes|), 0, 0.0)
  }

  function ZeroPercents(n: nat): (r: seq<int>)
    ensures |r| == n && forall i :: 0 <= i < n ==> r[i] == 0
  {
    if n == 0 then [] else ZeroPercents(n - 1) + [0]
  }

  function Percents(counts: seq<nat>, total: nat): (r: seq<int>)
    requires forall i :: 0 <= i < |counts| ==> counts[i] <= total
    ensures |r| == |counts|
    ensures forall i :: 0 <= i < |counts| ==> r[i] == Percent(counts[i], total)
  {
    if |counts| == 0 then [] else [Percent(counts[0], total)] + Percents(counts[1..], total)
  }

  /** `update_detection_statistics_from_list`. `ready` is false when no model
      or no stat cards exist, which clears the cards. An empty list resets
      every class count and progress value to zero and shows the time. Otherwise
      each class shows how many detections matched it first, the counts add up
      to at most the total, and every progress value is that share in percent,
      rounded down and within [0, 100]. */
  function Project(dets: seq<Detection>, classes: seq<string>, timeMs: real, ready: bool): (v: StatsView)
    ensures |v.counts| == |classes| && |v.progress| == |classes|
    ensures !ready ==> v == Cleared(classes)
    ensures ready && |dets| == 0 ==> v == Cleared(classes).(timeMs := timeMs)
    ensures ready ==> v.total == |dets| && v.timeMs == timeMs
    ensures Sum(v.counts) <= v.total
    ensures forall i :: 0 <= i < |classes| ==>
      && (ready ==> v.counts[i] == ClassCount(dets, classes, i))
      && 0 <= v.progress[i] <= 100
      && (v.total > 0 ==> v.progress[i] * v.total <= v.counts[i] * 100 < (v.progress[i] + 1) * v.total)
  {
    if !ready then
      SumAllZero(Zeros(|classes|));
      Cleared(classes)
    else if |dets| == 0 then
      SumAllZero(Zeros(|classes|));
      Cleared(classes).(timeMs := timeMs)
    else
      var counts := BucketCounts(dets, classes);
      BucketCountsSum(dets, classes);
      assert forall i :: 0 <= i < |counts| ==> counts[i] <= |dets| by {
        forall i | 0 <= i < |counts| {
          ElementAtMostSum(counts, i);
        }
      }
      assert forall i :: 0 <= i < |classes| ==> counts[i] == ClassCount(dets, classes, i) by {
        forall i | 0 <= i < |classes| {
          BucketCountsPerClass(dets, classes, i);
        }
      }
      StatsView(counts, Percents(counts, |dets|), |dets|, timeMs)
  }

  /** rec.py's projection as written: its clearing routine looks the total and
      time cards up under attribute names rec.py never assigns, so whenever
      the cards are cleared (no model, or an empty list) the class cards go to
      zero while the total and the time keep what `shown` displayed. */
  function ProjectAsWritten(shown: StatsView, dets: seq<Detection>, classes: seq<string>,
                            timeMs: real, ready: bool): (v: StatsView)
    ensures ready && |dets| > 0 ==> v == Project(dets, classes, timeMs, ready)
    ensures !(ready && |dets| > 0) ==>
      && v.total == shown.total && v.timeMs == shown.timeMs
      && |v.counts| == |classes| && |v.progress| == |classes|
      && forall i :: 0 <= i < |classes| ==> v.counts[i] == 0 && v.progress[i] == 0
  {
    if ready && |dets| > 0 then Project(dets, classes, timeMs, ready)
    else Cleared(classes).(total := shown.total, timeMs := shown.timeMs)
  }

  /** A frame with one detection followed by an empty one: as written the
      total card still reads 1 and the time card the first frame's time, where
      the projection the rest of the model uses shows 0 and the new time. */
  lemma StaleTotalAsWritten(classes: seq<string>, d: Detection)
    ensures var first := Project([d], classes, 5.0, true);
      && first.total == 1
      && ProjectAsWritten(first, [], classes, 7.0, true).total == 1
      && ProjectAsWritten(first, [], classes, 7.0, true).timeMs == 5.0
      && Project([], classes, 7.0, true).total == 0
      && Project([], classes, 7.0, true).timeMs == 7.0
  {
  }
}

=== FILE: text.dfy ===
/** String helpers behind the application's label handling: ASCII lower-casing,
    Python's substring test `p in s`, `str.strip()` and decimal rendering of
    class ids. Strings are `seq<char>`. */
module Text {

  /** `c.lower()` restricted to ASCII: 'A'..'Z' map to 'a'..'z'. */
  function LowerChar(c: char): (r: char)
    ensures 'A' <= c <= 'Z' ==> 'a' <= r <= 'z' && r as int - c as int == 32
    ensures !('A' <= c <= 'Z') ==> r == c
  {
    if 'A' <= c <= 'Z' then (c as int + 32) as char else c
  }

  /** `s.lower()`, character by character. */
  function Lower(s: string): (r: string)
    ensures |r| == |s|
    ensures forall i :: 0 <= i < |s| ==> r[i] == LowerChar(s[i])
  {
    if |s| == 0 then [] else [LowerChar(s[0])] + Lower(s[1..])
  }

  lemma LowerAppend(a: string, b: string)
    ensures Lower(a + b) == Lower(a) + Lower(b)
  {
    assert Lower(a + b) == Lower(a) + Lower(b);
  }

  /** Lower-casing a lower-cased string changes nothing. */
  lemma LowerIdempotent(s: string)
    ensures Lower(Lower(s)) == Lower(s)
  {
  }

  predicate IsPrefix(p: string, s: string) {
    |p| <= |s| && s[..|p|] == p
  }

  /** Python's `p in s`: `p` occurs in `s` at some offset. The empty string
      occurs in every string. */
  predicate Contains(s: string, p: string)
    decreases |s|
  {
    IsPrefix(p, s) || (|s| > 0 && Contains(s[1..], p))
  }

  /** The offset-based reading of `Contains`. */
  predicate OccursAt(s: string, p: string, i: int) {
    0 <= i && i + |p| <= |s| && s[i..i + |p|] == p
  }

  lemma {:induction false} ContainsHasOffset(s: string, p: string)
    requires Contains(s, p)
    ensures exists i :: OccursAt(s, p, i)
    decreases |s|
  {
    if IsPrefix(p, s) {
      assert OccursAt(s, p, 0);
    } else {
      ContainsHasOffset(s[1..], p);
      var i :| OccursAt(s[1..], p, i);
      assert s[1..][i..i + |p|] == s[i + 1..i + 1 + |p|];
      assert OccursAt(s, p, i + 1);
    }
  }

  lemma {:induction false} OffsetGivesContains(s: string, p: string, i: int)
    requires OccursAt(s, p, i)
    ensures Contains(s, p)
    decreases i
  {
    if i == 0 {
      assert IsPrefix(p, s);
    } else {
      assert s[1..][i - 1..i - 1 + |p|] == s[i..i + |p|];
      OffsetGivesContains(s[1..], p, i - 1);
    }
  }

  /** `Contains` agrees with the offset-based definition in both directions. */
  lemma ContainsIffOffset(s: string, p: string)
    ensures Contains(s, p) <==> exists i :: OccursAt(s, p, i)
  {
    if Contains(s, p) {
      ContainsHasOffset(s, p);
    }
    if exists i :: OccursAt(s, p, i) {
      var i :| OccursAt(s, p, i);
      OffsetGivesContains(s, p, i);
    }
  }

  /** Every string contains itself. */
  lemma ContainsSelf(s: string)
    ensures Contains(s, s)
  {
    OffsetGivesContains(s, s, 0);
  }

  /** Substring containment is transitive. */
  lemma ContainsTransitive(a: string, b: string, c: string)
    requires Contains(a, b) && Contains(b, c)
    ensures Contains(a, c)
  {
    ContainsHasOffset(a, b);
    var i :| OccursAt(a, b, i);
    ContainsHasOffset(b, c);
    var j :| OccursAt(b, c, j);
    forall k | 0 <= k < |c|
      ensures a[i + j + k] == c[k]
    {
      assert c[k] == b[j + k];
      assert b[j + k] == a[i + j + k];
    }
    assert a[i + j..i + j + |c|] == c;
    OffsetGivesContains(a, c, i + j);
  }

  /** Whitespace as Python's `str.isspace` sees it, ASCII range only. */
  predicate IsSpace(c: char) {
    c == ' ' || c == '\t' || c == '\n' || c == '\r' || c == '\U{B}' || c == '\U{C}'
    || ('\U{1C}' <= c <= '\U{1F}')
  }

  function TrimStart(s: string): (r: string)
    ensures |r| <= |s| && r == s[|s| - |r|..]
    ensures |r| > 0 ==> !IsSpace(r[0])
    ensures forall k :: 0 <= k < |s| - |r| ==> IsSpace(s[k])
  {
    if |s| > 0 && IsSpace(s[0]) then TrimStart(s[1..]) else s
  }

  function TrimEnd(s: string): (r: string)
    ensures |r| <= |s| && r == s[..|r|]
    ensures |r| > 0 ==> !IsSpace(r[|r| - 1])
    ensures forall k :: |r| <= k < |s| ==> IsSpace(s[k])
  {
    if |s| > 0 && IsSpace(s[|s| - 1]) then TrimEnd(s[..|s| - 1]) else s
  }

  /** `s.strip()`: `s` without its leading and trailing whitespace. */
  function Strip(s: string): (r: string)
    ensures |r| <= |s|
    ensures |r| > 0 ==> !IsSpace(r[0]) && !IsSpace(r[|r| - 1])
    ensures (forall k :: 0 <= k < |s| ==> IsSpace(s[k])) <==> r == []
  {
    var t := TrimStart(s);
    var r := TrimEnd(t);
    assert t == [] <==> forall k :: 0 <= k < |s| ==> IsSpace(s[k]) by {
      if t != [] {
        assert t[0] == s[|s| - |t|];
      }
    }
    r
  }

  function DigitChar(d: int): (r: char)
    requires 0 <= d < 10
    ensures '0' <= r <= '9'
  {
    ('0' as int + d) as char
  }

  /** Decimal rendering of a natural number, as `str(n)`. */
  function NatToString(n: nat): (r: string)
    ensures |r| > 0
    ensures forall k :: 0 <= k < |r| ==> '0' <= r[k] <= '9'
    ensures n < 10 <==> |r| == 1
    decreases n
  {
    if n < 10 then [DigitChar(n)] else NatToString(n / 10) + [DigitChar(n % 10)]
  }

  /** Decimal rendering of an integer, with a leading '-' when negative. */
  function IntToString(n: int): (r: string)
    ensures |r| > 0
    ensures (r[0] == '-') <==> n < 0
  {
    if n < 0 then "-" + NatToString(-n) else NatToString(n)
  }
}

=== FILE: wrappers.dfy ===
/** The optional value used for absent fields (`None` in the application). */
module Wrappers {

  datatype Option<+T> = None | Some(value: T)
}
